=== FILE: README.md ===
# Love quiz: builder, draft editor and player, modelled in Dafny

The love-quiz application lets one partner build a five-question quiz about
themselves and the other partner play it. It holds three client-side state
machines, and each is modelled here as a set of pure transitions over
immutable records:

- **The sequential question builder** (`src/Create.jsx`, module `Create`):
  - a setup step (quiz title and both names);
  - an editor (`currentQuestion`) from which questions are added one at a
    time until there are five;
  - the serialised game document (module `Game`), with per-option
    `isCorrect`, two points per question and the fixed score bands 8–10,
    5–7 and 0–4.
  - This builder keys the correct answer by INDEX into the option list.
- **The fixed-five-field editor** (`Draft.jsx`, module `Draft`):
  - a names step, then five fields edited one at a time (free text, or a
    choice of two to four options);
  - a reveal step, then a publish call gated first on the reveal text and
    then on an access token.
  - This editor keys the correct answer by its TEXT. The two keying schemes
    are kept as two separate datatypes.
- **The quiz player** (`src/View.jsx`, module `View`):
  - a start screen that needs a name;
  - one question at a time, with a selected option index and a Next button
    that scores and logs the answer;
  - a result screen whose tier and message come from the game's bands,
    checked best first.

The other modules:

- `Published` connects the builder to the player: what a built game means
  once it is played.
- `Text` models the JavaScript string behaviour the handlers depend on:
  `trim`, the blank test (trimming leaves nothing), the filter that drops
  blank options, and the quote-stripping regular expression.
- `Seqs` models `Array.prototype.filter`.
- `Outcomes` holds the `Option` and `Result` types.

Every handler is a guard plus an update. A refused action returns `Err` and
leaves the state as it was. The messages the source shows (`showMessage`,
`alert`) are represented only by the error's constructor.

Some behaviour of the code differs from what the application's own text
tells its users, and the model follows the code:

- **A game with a free-text question cannot be finished in the player.**
  The builder tells the creator that for a text question "any answer is
  correct" (src/Create.jsx:980, :1073 and :1605; the draft editor says the
  same at Draft.jsx:1768). But the builder stores such a question with no
  options and `correctOption` −1, and the player only offers one button per
  option and keeps Next disabled until one is selected (src/View.jsx:303-338).
  So the player is stuck on the first free-text question for good
  (`View.QuestionWithoutOptionsBlocksPlay`,
  `Published.TextQuestionBlocksResult`). Even a selection forced in by other
  means could never equal −1, so such a question would never score
  (`View.TextQuestionNeverScores`).
- **Re-selecting the question type in the builder is not a no-op.** It
  wipes the typed options. In the draft editor, re-selecting the current
  field type does nothing.
- **The draft editor's fields can be skipped.** The check of all five fields
  before the reveal step (`handleMoveToReveal`, Draft.jsx:697) has no
  caller. The reveal step is reached by Next on the last field, which
  checks that field alone (Draft.jsx:621), and the progress dots jump to any
  field without a check (Draft.jsx:671, :1595). So a creator can jump to
  the fifth field, press Next and reach the reveal step with the first four
  never validated (`Draft.SkippingFieldsReachesReveal`).
- **The draft editor accepts a correct answer that names no option.** Its
  validation only checks that the answer is non-blank. Publishing does not
  re-validate the fields at all.
- **The draft editor's option removal does not clear an answer that named
  the removed option.** It clears it when the answer named the option that
  slid into that slot (see Findings).
- **`resetGame` keeps the player's name.**
- **Ids can repeat in the builder.** A new question's id is the list length
  plus one, and removal does not renumber. So removing a question and then
  adding one can give two questions the same id.

## Model

| member | source | states |
|---|---|---|
| Text.Trim | src/Create.jsx:614 | `trim` returns a contiguous slice of its input; everything cut from either side is white space, and what remains neither starts nor ends with white space |
| Text.BlankIffAllSpace | src/Create.jsx:614 | trimming leaves nothing exactly when every character is white space, which is the blank test all validations use |
| Text.TrimIdempotent | Draft.jsx:927 | trimming an already trimmed answer changes nothing |
| Text.TrimOfClean | Draft.jsx:615 | a string with no white space at either end is its own trim |
| Text.NonBlank | src/Create.jsx:637 | the options kept by the blank-dropping filter are exactly the non-blank ones, and there are no more of them than before |
| Text.SplitAround | src/Create.jsx:637 | dropping blanks from a list split around one entry drops them from each part |
| Text.NonBlankKeepsOrder | src/Create.jsx:637 | filtering out blank options keeps every non-blank option right after the non-blank options that preceded it, so the relative order survives |
| Text.StripQuotes | Draft.jsx:615 | the quote regex removes at most one `"` or `'` from each end: the full table for an empty input, one character, and longer inputs |
| Text.StripQuotesRemovesOneLayer | Draft.jsx:615 | any string quoted at both ends loses exactly those two quotes, whatever it holds (so a doubly quoted answer keeps one layer), and a lone quote disappears |
| Seqs.Filter | src/Create.jsx:670 | `filter` keeps exactly the elements that pass, and only those |
| Seqs.FilterAppend | src/Create.jsx:670 | filtering a concatenation filters each part: the survivors keep their relative order |
| Seqs.FilterKeepsAll | src/Create.jsx:670 | when every element passes, the filter returns its input unchanged |
| Game.StandardScoring | src/Create.jsx:684-688 | the bands are perfect 8–10, good 5–7 and low 0–4, adjacent, starting at 0 and ending at 5 questions × 2 points, each band carrying the creator's message for that tier |
| Create.StartQuestions | src/Create.jsx:934-938 | the questions step opens exactly when title, creator name and partner name are all non-blank, and nothing but the step changes |
| Create.CheckImageUpload | src/Create.jsx:532-549 | no file is ignored; a file over 10 MiB is refused before its type is looked at; otherwise it is accepted exactly when its MIME type starts with `image/` |
| Create.ImageGuardMonotoneInSize | src/Create.jsx:532-549 | for a fixed type, a smaller file than an accepted one is accepted, and a larger file than one refused for size is refused for size |
| Create.SizeAndTypeChecksIndependent | src/Create.jsx:532-549 | the size refusal ignores the type, and within the limit the type refusal ignores the size |
| Create.EditOption | src/Create.jsx:607-611 | retyping one option changes that option only |
| Create.ChooseCorrectOption | src/Create.jsx:1133-1137 | the radio button stores exactly the clicked index (so with two options of equal text, the clicked one, not its twin), which names that option, and changes nothing else |
| Create.SwitchType | src/Create.jsx:1042-1047 | the type tabs always reset the options: four blanks with index 0 for multiple choice, none with −1 for free text; text and image are kept |
| Create.SwitchTypeIdempotent | src/Create.jsx:1042-1047 | selecting a type twice is the same as selecting it once |
| Create.ReselectingTypeWipesOptions | src/Create.jsx:1042-1047 | re-selecting the current type is never a no-op for an editor holding a typed option: that option is lost and only blank options remain |
| Create.EditorActionsKeepWellFormed | src/Create.jsx:477-484 | starting from the initial editor, editing an option, choosing the correct one and switching type keep four options with an in-range correct index |
| Create.AddQuestion | src/Create.jsx:613-667 | blank text, fewer than two non-blank options, an out-of-range index and a blank chosen option are refused in that order, and each refusal changes nothing; an accepted question is appended last with id length+1; its options are the non-blank ones and its index is copied unchanged (free text: no options, −1); the editor resets keeping the type; step 4 once there are five |
| Create.AddedOptionsAreNonBlankInOrder | src/Create.jsx:637 | the stored options are exactly the editor's non-blank options, in their original order |
| Create.WellFormedEditorNeverThrows | src/Create.jsx:627 | with the editor the UI maintains, `options[correctOption]` is always defined, so `addQuestion` never throws |
| Create.AddKeepsIdsPositions | src/Create.jsx:633 | without removals, ids stay the 1-based positions and so stay distinct |
| Create.RemoveQuestion | src/Create.jsx:669-671 | the question list is filtered by id: exactly the questions with a different id survive; an id nobody has changes nothing; only the question list changes |
| Create.RemoveKeepsOrder | src/Create.jsx:669-671 | removal preserves the relative order of the survivors |
| Create.WithoutSoleCarrier | src/Create.jsx:669-671 | when exactly one question carries the id, removal takes out that question and keeps the ones before and after it, in order |
| Create.LastSurvivesRemoval | src/Create.jsx:669-671 | with ids equal to positions, removing any id but the last shortens the list by one and leaves the old last question, still carrying the old length as id, at the end |
| Create.RemoveAtPosition | src/Create.jsx:669-671 | with ids equal to positions, removing an id takes out exactly that position |
| Create.DuplicateIdAfterRemoveThenAdd | src/Create.jsx:633-671 | with ids equal to positions, removing any question but the last and then adding one gives the old last question and the new one the same id, so ids are no longer distinct |
| Create.PublishedOptions | src/Create.jsx:708-712 | each published option carries its index and text, and is marked correct exactly when its index is the stored `correctOption` |
| Create.PublishedQuestion | src/Create.jsx:703-716 | a published question keeps id, text, type, image and index, is worth 2 points, and a free-text question publishes no options |
| Create.MarkedCorrectIffInRange | src/Create.jsx:708-712 | some option is marked correct exactly when the stored index is in range, and never more than one |
| Create.KindCountsPartition | src/Create.jsx:719-721 | multiple-choice and free-text counts add up to the number of questions |
| Create.FinishCreator | src/Create.jsx:673-723 | no questions and fewer than five are refused; otherwise the game has the setup names, five as `totalQuestions`, 2 × count as total points, the standard bands, every question published in order, and stats counting each kind separately |
| Create.CompleteSubmission | src/Create.jsx:727-756 | the builder reaches step 6 exactly when a store succeeds, and otherwise stays as it was; the id is the server's `id`, else its `gameId`, else a random one when the request and the first store succeed, and a fresh random one after a failed request or a failed first store |
| Create.ChosenId | src/Create.jsx:735 | the server's `id` when present and non-empty, else its `gameId`, else the random id |
| Create.SubmittedIdNeverMissing | src/Create.jsx:735-756 | with non-empty random ids, a submission that goes through never uses an empty id, and the server's own id is used when present and the first store works |
| Create.ReindexedPointsAtChosenOption | src/Create.jsx:637-638 | once blanks are dropped, the chosen option sits at the count of non-blank options before it |
| Create.AddQuestionReindexed | src/Create.jsx:632-640 | the corrected add accepts and refuses exactly as the original and stores the same options, but its index names the option the creator chose |
| Create.StaleCorrectOptionNamesAnotherOption | src/Create.jsx:637-638 | as written, choosing the second option behind a blank first one stores an index that names the third |
| Create.StaleCorrectOptionPastTheEnd | src/Create.jsx:637-638 | as written, the stored index can fall past the filtered list, so no published option is marked correct |
| Draft.DefaultOptions | Draft.jsx:511-541 | fields 2 and 3 get three suggestions and the others four (four for any index past the table), none of them blank |
| Draft.UpdateFieldLabel | Draft.jsx:544-548 | only the current field's label changes; the other fields, the step, the names, the current index, the reveal and the flags are untouched |
| Draft.UpdateFieldOption | Draft.jsx:551-555 | one option is retyped; the field's label, type and stored correct answer, the other fields and the rest of the form are left as they were |
| Draft.AddFieldOption | Draft.jsx:579-591 | one blank option is appended exactly when there are fewer than four, and nothing else in the form changes; otherwise "maximum" is reported |
| Draft.WithoutIndex | Draft.jsx:561-563 | the filter on positions drops exactly the entry at the index and shifts the rest down |
| Draft.RemoveFieldOption | Draft.jsx:558-576 | with more than two options, the option at the index is removed; the answer is cleared when the option that moved into that slot equals it (as written); nothing else in the form changes; otherwise "minimum" is reported |
| Draft.RemoveFieldOptionIntended | Draft.jsx:558-576 | the corrected removal refuses exactly when the original does and removes the same option, clears the answer exactly when the removed option was it, and changes nothing else in the form |
| Draft.RemovalsDifferOnlyInAnswer | Draft.jsx:558-576 | the as-written and corrected removals refuse alike and produce the same form except, at most, the current field's answer |
| Draft.IntendedRemovalNeverDangles | Draft.jsx:564-567 | with the corrected removal, an answer that named an option is cleared or still names one |
| Draft.RemovingCorrectOptionLeavesItDangling | Draft.jsx:564-567 | as written, removing the option that is the answer leaves the answer naming no option |
| Draft.RemovingNeighbourClearsCorrectAnswer | Draft.jsx:564-567 | as written, removing the option before the answer clears an answer that still names an option |
| Draft.ChangeFieldType | Draft.jsx:594-610 | selecting the current type changes nothing; text to choice installs the suggestions and clears the answer; choice to text drops the options and clears the answer |
| Draft.CleanAnswer | Draft.jsx:615 | the stored answer has no white space at either end and is no longer than the input |
| Draft.SetCorrectAnswer | Draft.jsx:613-618 | only the current field's answer changes, to the quote-stripped, trimmed input; the rest of the form is untouched |
| Draft.ChoosingCleanOptionStoresIt | Draft.jsx:613-618 | clicking a non-empty option with no surrounding white space or quotes, one-letter options included, stores exactly that option, which the answer then names |
| Draft.ChoosingQuotedOptionDoesNotNameIt | Draft.jsx:613-618 | clicking a quoted option stores the word without its quotes, which names no option unless some other option is exactly the unquoted word |
| Draft.FieldProblem | Draft.jsx:624-652 | a field passes exactly when its label is non-blank and, for a choice field, it has two non-blank options and a non-blank answer |
| Draft.EditedOptionLeavesAnswerDangling | Draft.jsx:551-555 | retyping the chosen option yields a field that passes validation while its answer names no option |
| Draft.GoToNextField | Draft.jsx:621-659 | a failing field blocks with its first problem; otherwise the next field becomes current, or step 3 after the fifth |
| Draft.GoToPrevField | Draft.jsx:662-668 | the previous field becomes current, or step 1 from the first; fields are never touched |
| Draft.GoToField | Draft.jsx:671-673 | the progress dots only change which field is current |
| Draft.NextThenPrevIsIdentity | Draft.jsx:621-668 | going forward then back restores the exact same state |
| Draft.PrevThenNextIsIdentity | Draft.jsx:621-668 | going back then forward restores the exact same state when the earlier field passes |
| Draft.StartQuestions | Draft.jsx:688-694 | the fields step opens exactly when both names are non-blank |
| Draft.BackUndoesStart | Draft.jsx:662-694 | from the names step with the first field current, starting the questions and pressing Back on the first field gives back exactly the form before |
| Draft.MoveToReveal | Draft.jsx:697-738 | the full check that nothing in the editor calls: step 3 exactly when all five fields pass; otherwise the lowest failing field is reported with its problem and made current, at step 2 |
| Draft.SkippingFieldsReachesReveal | Draft.jsx:621-673 | jumping by a progress dot to the last field and pressing Next reaches the reveal step whenever the last field passes, even with an earlier field failing, and leaves every field as it was |
| Draft.Apply | Draft.jsx:544-673 | one editor action, with option removal taken as the corrected `RemoveFieldOptionIntended` rather than the handler as written, and out-of-range indices ignored: navigation (Next, Back, dots) never changes a field; every other action changes only the current field; only Next and Back change the step; names, reveal text and publish state never change |
| Draft.Run | Draft.jsx:544-673 | a sequence of actions, applied one at a time, never changes the names, reveal text or publish state, and a sequence of navigation actions alone leaves every field as it was |
| Draft.ApplyKeepsBounds | Draft.jsx:558-610 | every editing and navigation action keeps each choice field at two to four options |
| Draft.RunKeepsBounds | Draft.jsx:558-610 | no sequence of actions takes a choice field outside two to four options |
| Draft.InitialForm | Draft.jsx:387-466 | the editor mounts on the names step with empty names, five empty free-text fields numbered 1 to 5 (each of which would fail validation for its missing question), the first field current, not loading, no login dialog and nothing published |
| Draft.InitialFormBounded | Draft.jsx:417-466 | the initial form has five fields with the first one current, and no choice field outside two to four options |
| Draft.PayloadOf | Draft.jsx:918-928 | a field is sent with its label, type and order; a choice field with exactly its non-blank options: as many as there are, each after the non-blank options that preceded it (so in order, duplicates kept, nothing added), and its trimmed answer; a text field with no options and "" |
| Draft.FieldsPayload | Draft.jsx:918-928 | the payload has one entry per field, in order |
| Draft.PassingFieldPayload | Draft.jsx:918-928 | a field that passes validation is sent with at least two options, none blank, and a non-blank trimmed answer |
| Draft.Publish | Draft.jsx:876-928 | blank reveal text stops everything; then a missing or empty token opens the login dialog and sends nothing; otherwise the form turns busy and the request carries the token, names, normalised fields and reveal |
| Draft.PublishSkipsFieldValidation | Draft.jsx:876-900 | a form whose first field has no question is still sent |
| Draft.ApplyPublishResponse | Draft.jsx:958-1004 | only the busy flag, the published id and the login dialog can change; busy ends; a created form records its id; a 401 reopens the login dialog; other failures change nothing else |
| Draft.PublishRoundKeepsDraft | Draft.jsx:876-1004 | a publish round from an idle form, whatever the server answers, leaves a valid, bounded draft with the same fields, names, reveal, step and position; on success only the published id is new |
| View.SetPlayerName | src/View.jsx:249 | typing into the name box replaces the player name and changes nothing else |
| View.HandleStart | src/View.jsx:57-63 | play starts exactly when the player's name is non-blank |
| View.HandleAnswerSelect | src/View.jsx:65-67 | selecting an option only records its index, and the last selection wins |
| View.Award | src/View.jsx:75-77 | 2 points exactly when the selected index equals `correctOption`, otherwise 0 |
| View.HandleNext | src/View.jsx:69-96 | without a selection nothing changes; otherwise the score rises by the award and exactly one entry is logged; before the last question the index advances and the selection clears; on the last one the result screen opens and the index stays |
| View.RevealScoreMessage | src/View.jsx:93 | the timer set after the last answer shows the score message and changes nothing else |
| View.ResetGame | src/View.jsx:98-105 | back to the start screen with index 0, no selection, score 0 and an empty log; the name is kept |
| View.SumIsTwiceCorrect | src/View.jsx:79-87 | when every entry's points agree with its verdict, the points sum to twice the number of correct entries |
| View.ScoreCountsCorrectAnswers | src/View.jsx:79-87 | the score is twice the number of correct answers, so at most twice the number answered |
| View.HandleNextKeepsConsistent | src/View.jsx:69-96 | each step keeps the score equal to the sum of the logged points |
| View.ResetIsConsistent | src/View.jsx:98-105 | a reset session is consistent with score 0 |
| View.OneMissCap | src/View.jsx:76 | one missed question caps the matches at one fewer than the number of questions |
| View.TwoMissesCap | src/View.jsx:76 | two missed questions cap the matches at two fewer |
| View.PlayStep | src/View.jsx:65-96 | selecting and confirming on a question being played logs it, scores it and moves on, or ends on the last |
| View.PlayThrough | src/View.jsx:57-96 | pressing, on every question, an option button the screen shows and then Next ends on the result screen with one entry per question, each with its pick and its verdict, and a score equal to the sum of the entries' points |
| View.CountCorrectIsMatches | src/View.jsx:76-87 | a log whose verdicts follow the picks counts exactly the picks equal to their question's `correctOption` |
| View.PlayScoresMatches | src/View.jsx:76-79 | such a consistent log has scored 2 points per pick equal to `correctOption` |
| View.MissedPicksCapScore | src/View.jsx:76-79 | a play whose log records a missed pick has scored at most 2 × (questions − 1), and with two missed picks at most 2 × (questions − 2) |
| View.TextQuestionNeverScores | src/View.jsx:303-338 | on a question with no options and index −1, Next without a selection is refused, and no option index ever adds points |
| View.Press | src/View.jsx:303-338 | only an option button the current question shows can select, Next does nothing without a selection and otherwise is `handleNext`, and nothing is pressed off the playing screen |
| View.PressStaysNotPast | src/View.jsx:303-338 | one press cannot carry a play past a question without options |
| View.QuestionWithoutOptionsBlocksPlay | src/View.jsx:303-338 | whatever the player presses, a play that has not passed a question without options stays on the playing screen, at or before it, and never reaches the result screen |
| View.ScoreLevel | src/View.jsx:127-134 | perfect exactly at or above the perfect lower bound, else good at or above the good one, else low; low without `gameInfo` |
| View.ScoreMessage | src/View.jsx:107-125 | nothing without `gameInfo`; otherwise the message of the band `ScoreLevel` picks |
| View.StandardTiers | src/View.jsx:107-134 | with the standard bands, 8 and above is perfect, 5 to 7 good and below 5 low, with the matching message |
| View.TierMonotone | src/View.jsx:127-134 | more points never give a worse tier |
| Published.AddKeepsTextQuestionsStored | src/Create.jsx:642-653 | adding a question keeps every free-text question stored with no options and index −1 |
| Published.RemoveKeepsTextQuestionsStored | src/Create.jsx:669-671 | so does removing questions |
| Published.BuiltGameTiers | src/Create.jsx:684-688 | a built game's tiers split at 8 and 5, and the creator's message for the tier is shown |
| Published.ScoreWithinTotal | src/Create.jsx:701 | no play of a built game scores above its `totalPoints` |
| Published.BuiltTextQuestionNeverScores | src/View.jsx:76 | a free-text question of a built game adds nothing whatever index is selected |
| Published.TextQuestionBlocksResult | src/View.jsx:303-338 | a built game with a free-text question, started with a valid name, never reaches the result screen, whatever is pressed |
| Published.ReindexedChoiceScores | src/Create.jsx:637-638 | with the corrected add, the option the creator chose is the one marked correct, and selecting it scores |
| Published.StaleIndexMarksChosenOptionWrong | src/Create.jsx:637-638 | as written, the option the creator chose is published as incorrect, and selecting it scores nothing |

## Left out

- Rendering: the inline UI components, styling, JSX markup, placeholder
  texts and progress percentages. They have no bearing on the state.
- Network and persistence:
  - the axios calls;
  - `localStorage`;
  - the player's fetch-then-local-storage fallback;
  - the OTP login flow and the logout on a 401.

  The publish call is one abstract `PublishRequest` and its outcome is a
  parameter. The access token is a parameter of `Draft.Publish`.
- Draft.Publish: the three publish requests are modelled as one. A failure
  after the form was created on the server leaves a partial form there;
  that is server state and is not modelled.
- Nondeterminism:
  - `FileReader`, whose images are opaque `string`s;
  - `Math.random` ids, passed in as `randomId` and `retryId`;
  - `Date` timestamps, `setTimeout` navigation, the clipboard and sharing.
- Score-message editing, couple photo, love reveal and theme in the
  builder. These are plain field updates and extra payload fields that
  nothing reads back.
- Create.FinishCreator: the payload omits `couplePhoto`, `loveReveal`,
  `createdAt`, `theme` and `timestamp`, which are opaque or
  clock-dependent.
- Create.CompleteSubmission: JavaScript truthiness of the returned ids is
  modelled as "present and non-empty". Numeric ids are not distinguished.
  Whether each `localStorage` write succeeds is a parameter, and the share
  link and busy flag it sets are not part of the builder record.
- Create.EditOption: the index is required to name an existing option.
  The UI only offers inputs for existing options; JavaScript would grow the
  array for any other index.
- Create.ChooseCorrectOption: the index is required to name an existing
  option, because the radio buttons exist only for those.
- Draft.UpdateFieldOption: the index is required to name an existing
  option, as for `Create.EditOption`.
- View.HandleNext: an index past the questions is the error
  `NoSuchQuestion`. The source would throw reading `question.id` there,
  which cannot happen while playing a non-empty game.
- Draft.DefaultOptions: the suggestions are written with the emoji the
  authors evidently meant. The source file holds them double-encoded
  (UTF-8 bytes read as Windows-1252 and encoded again, so the coffee cup
  appears as the three characters `â˜•`), and the program shows those
  characters. Lengths and non-blankness do not depend on it, since every
  suggestion contains a word besides any name it interpolates.
- View.RevealScoreMessage: the half-second delay is not modelled; only the
  flag it sets is.
- 404 and other publish failures differ only in the message shown, so they
  are one `Failed(status)` case.

## Findings

| source | as written | input that shows it | evidently intended | confidence | as-written member | corrected member |
|---|---|---|---|---|---|---|
| src/Create.jsx:637-638 | blank options are dropped but `correctOption` is copied unchanged | options `["", x, y, z]` with the second (x) marked correct: the stored index 1 names y | the index follows the chosen option into the filtered list | high (not executed) | Create.StaleCorrectOptionNamesAnotherOption | Create.AddQuestionReindexed |
| Draft.jsx:564-567 | `newFields` is a shallow copy, so `fields[currentField].options` is already the filtered list and `removedOption` is the option that slid into the slot | options `[a, b, c]`, answer `a`, remove option 0: the answer stays `a`, which no option names; with answer `b` the answer is cleared instead | clear the answer exactly when the removed option was it | high (not executed) | Draft.RemovingCorrectOptionLeavesItDangling | Draft.RemoveFieldOptionIntended |

=== FILE: create.dfy ===
/** The sequential question builder of src/Create.jsx: a setup step, then
    questions added one at a time from an editor (`currentQuestion`) until
    there are five, then the serialised game.  Each handler is a guard
    followed by an update; a refused action is an `Err` and leaves the
    builder as it was.

    The builder keys the correct answer of a multiple-choice question by its
    INDEX into the option list.
 */
module Create {
  import opened Outcomes
  import opened Text
  import opened Seqs
  import opened Game

  /** A question as stored in the builder's `questions` list. */
  datatype Question = Question(
    id: int,
    text: string,
    kind: QuestionKind,
    image: Option<string>,
    options: seq<string>,
    correctOption: int)

  /** `currentQuestion`, the question being edited (its `id` stays null). */
  datatype Editor = Editor(
    text: string,
    kind: QuestionKind,
    image: Option<string>,
    options: seq<string>,
    correctOption: int)

  /** The builder: wizard step, setup fields, added questions and editor. */
  datatype Builder = Builder(
    step: int,
    title: string,
    creatorName: string,
    theirName: string,
    questions: seq<Question>,
    editor: Editor)

  const BlankOptions: seq<string> := ["", "", "", ""]

  /** The editor after a successful add: empty, four blank options, first
      option marked correct, the question type kept. */
  function FreshEditor(kind: QuestionKind): Editor {
    Editor("", kind, None, BlankOptions, 0)
  }

  const Initial: Builder := Builder(1, "", "", "", [], FreshEditor(Options))

  // ---------------------------------------------------------------- setup

  datatype SetupError = MissingInformation

  /** "Start Adding Questions": all three setup fields must be non-blank. */
  function StartQuestions(b: Builder): (r: Result<Builder, SetupError>)
    ensures r.Ok? <==> IsFilled(b.creatorName) && IsFilled(b.theirName) && IsFilled(b.title)
    ensures r.Ok? ==> r.value.step == 2 && r.value == b.(step := r.value.step)
  {
    if IsBlank(b.creatorName) || IsBlank(b.theirName) || IsBlank(b.title) then Err(MissingInformation)
    else Ok(b.(step := 2))
  }

  // ---------------------------------------------------------------- image guard

  /** The largest image `handleImageUpload` accepts: 10 MiB. */
  const MaxImageBytes: int := 10 * 1024 * 1024

  /** What the guard of `handleImageUpload` sees of a chosen file. */
  datatype FileInfo = FileInfo(size: int, mimeType: string)

  datatype UploadVerdict = NoFile | FileTooLarge | InvalidFile | ImageAccepted

  /** The checks `handleImageUpload` makes before reading a file: no file is
      ignored, the size is checked before the type, and only `image/...`
      types pass. */
  function CheckImageUpload(file: Option<FileInfo>): (r: UploadVerdict)
    ensures r == NoFile <==> file.None?
    ensures r == FileTooLarge <==> file.Some? && file.value.size > MaxImageBytes
    ensures r == InvalidFile <==> file.Some? && file.value.size <= MaxImageBytes && !("image/" <= file.value.mimeType)
    ensures r == ImageAccepted <==> file.Some? && file.value.size <= MaxImageBytes && "image/" <= file.value.mimeType
  {
    match file
    case None => NoFile
    case Some(f) =>
      if f.size > MaxImageBytes then FileTooLarge
      else if !("image/" <= f.mimeType) then InvalidFile
      else ImageAccepted
  }

  /** The guard is monotone in the file size: for a fixed type, a smaller
      file fares no worse, and a larger one no better. */
  lemma ImageGuardMonotoneInSize(file: FileInfo, size: int)
    requires size <= file.size
    ensures CheckImageUpload(Some(file)) == ImageAccepted ==>
            CheckImageUpload(Some(file.(size := size))) == ImageAccepted
    ensures CheckImageUpload(Some(file.(size := size))) == FileTooLarge ==>
            CheckImageUpload(Some(file)) == FileTooLarge
  {
  }

  /** Whether a file is refused for its size does not depend on its type,
      and whether it is refused for its type does not depend on its size,
      as long as it is within the limit. */
  lemma SizeAndTypeChecksIndependent(file: FileInfo, mimeType: string, size: int)
    requires 0 <= size <= MaxImageBytes
    ensures (CheckImageUpload(Some(file)) == FileTooLarge) ==
            (CheckImageUpload(Some(file.(mimeType := mimeType))) == FileTooLarge)
    ensures (CheckImageUpload(Some(file.(size := size))) == InvalidFile) ==
            (CheckImageUpload(Some(FileInfo(0, file.mimeType))) == InvalidFile)
  {
  }

  // ---------------------------------------------------------------- editor

  /** What the editor's inputs guarantee: a multiple-choice editor shows four
      option inputs and one of their radio buttons is the correct one. */
  predicate EditorWellFormed(e: Editor) {
    e.kind == Options ==> |e.options| == 4 && 0 <= e.correctOption < 4
  }

  /** `handleOptionChange`: retype one option. */
  function EditOption(e: Editor, index: int, value: string): (r: Editor)
    requires 0 <= index < |e.options|
    ensures |r.options| == |e.options| && r.options[index] == value
    ensures forall k :: 0 <= k < |e.options| && k != index ==> r.options[k] == e.options[k]
    ensures r == e.(options := r.options)
  {
    e.(options := e.options[index := value])
  }

  /** The radio group: mark the option at `index` as the correct one. */
  function ChooseCorrectOption(e: Editor, index: int): (r: Editor)
    requires 0 <= index < |e.options|
    ensures r.correctOption == index
    ensures 0 <= r.correctOption < |r.options| && r.options[r.correctOption] == e.options[index]
    ensures r == e.(correctOption := r.correctOption)
  {
    e.(correctOption := index)
  }

  /** The question-type tabs.  The options are reset on every call, even when
      the type selected is the current one. */
  function SwitchType(e: Editor, kind: QuestionKind): (r: Editor)
    ensures r.kind == kind && r.text == e.text && r.image == e.image
    ensures kind == Options ==> |r.options| == 4 && r.correctOption == 0
    ensures kind == Options ==> forall k :: 0 <= k < |r.options| ==> IsBlank(r.options[k])
    ensures kind == TextAnswer ==> r.options == [] && r.correctOption == -1
  {
    e.(kind := kind,
       options := if kind == Options then BlankOptions else [],
       correctOption := if kind == Options then 0 else -1)
  }

  /** Selecting a type twice is the same as selecting it once. */
  lemma SwitchTypeIdempotent(e: Editor, kind: QuestionKind)
    ensures SwitchType(SwitchType(e, kind), kind) == SwitchType(e, kind)
  {
  }

  /** Re-selecting the current type is not a no-op: any editor holding a
      typed option loses it, and is left with blank options only. */
  lemma ReselectingTypeWipesOptions(e: Editor, k: int)
    requires 0 <= k < |e.options| && IsFilled(e.options[k])
    ensures SwitchType(e, e.kind) != e
    ensures forall j :: 0 <= j < |SwitchType(e, e.kind).options| ==> IsBlank(SwitchType(e, e.kind).options[j])
  {
  }

  /** Every editor action keeps the editor well formed. */
  lemma EditorActionsKeepWellFormed(e: Editor, index: int, value: string, kind: QuestionKind)
    requires EditorWellFormed(e)
    ensures 0 <= index < |e.options| ==> EditorWellFormed(EditOption(e, index, value))
    ensures 0 <= index < |e.options| ==> EditorWellFormed(ChooseCorrectOption(e, index))
    ensures EditorWellFormed(SwitchType(e, kind))
    ensures EditorWellFormed(FreshEditor(kind))
  {
  }

  // ---------------------------------------------------------------- adding

  datatype AddError =
    | MissingQuestion          // blank question text
    | NotEnoughOptions         // fewer than two non-blank options
    | MissingCorrectOption     // the option marked correct is blank
    | CorrectOptionOutOfRange  // `options[correctOption]` is undefined, so `.trim()` throws

  /** The checks `addQuestion` makes on a multiple-choice editor, in order;
      `None` when they all pass. */
  function OptionsProblem(e: Editor): Option<AddError> {
    if |NonBlank(e.options)| < 2 then Some(NotEnoughOptions)
    else if !(0 <= e.correctOption < |e.options|) then Some(CorrectOptionOutOfRange)
    else if IsBlank(e.options[e.correctOption]) then Some(MissingCorrectOption)
    else None
  }

  /** The question `addQuestion` stores: blank options dropped, and the
      correct index copied WITHOUT adjusting it to the shorter list. */
  function StoredQuestion(id: int, e: Editor): Question {
    match e.kind
    case Options => Question(id, e.text, Options, e.image, NonBlank(e.options), e.correctOption)
    case TextAnswer => Question(id, e.text, TextAnswer, e.image, [], -1)
  }

  /** The update after an accepted question: append it, reset the editor
      (keeping the type), and move to step 4 once there are five. */
  function Append(b: Builder, q: Question): Builder {
    b.(questions := b.questions + [q],
       editor := FreshEditor(b.editor.kind),
       step := if |b.questions| + 1 >= RequiredQuestions then 4 else b.step)
  }

  /** `addQuestion`. */
  function AddQuestion(b: Builder): (r: Result<Builder, AddError>)
    ensures IsBlank(b.editor.text) ==> r == Err(MissingQuestion)
    ensures IsFilled(b.editor.text) && b.editor.kind == Options && |NonBlank(b.editor.options)| < 2
            ==> r == Err(NotEnoughOptions)
    ensures IsFilled(b.editor.text) && b.editor.kind == Options && |NonBlank(b.editor.options)| >= 2
            && !(0 <= b.editor.correctOption < |b.editor.options|)
            ==> r == Err(CorrectOptionOutOfRange)
    ensures IsFilled(b.editor.text) && b.editor.kind == Options && |NonBlank(b.editor.options)| >= 2
            && 0 <= b.editor.correctOption < |b.editor.options| && IsBlank(b.editor.options[b.editor.correctOption])
            ==> r == Err(MissingCorrectOption)
    ensures r.Ok? <==> IsFilled(b.editor.text) && (b.editor.kind == Options ==> OptionsProblem(b.editor).None?)
    ensures r.Ok? ==> |r.value.questions| == |b.questions| + 1
    ensures r.Ok? ==>
      var n := |b.questions|;
      var q := r.value.questions[n];
      && r.value.questions[..n] == b.questions
      && q.id == n + 1
      && q.text == b.editor.text && q.kind == b.editor.kind && q.image == b.editor.image
      && (q.kind == Options ==> (forall o :: o in q.options <==> o in b.editor.options && IsFilled(o))
                                && |q.options| >= 2
                                && q.correctOption == b.editor.correctOption)
      && (q.kind == TextAnswer ==> q.options == [] && q.correctOption == -1)
      && r.value.editor == FreshEditor(b.editor.kind)
      && r.value.step == (if n + 1 >= 5 then 4 else b.step)
      && r.value.title == b.title && r.value.creatorName == b.creatorName && r.value.theirName == b.theirName
  {
    if IsBlank(b.editor.text) then Err(MissingQuestion)
    else if b.editor.kind == Options && OptionsProblem(b.editor).Some? then Err(OptionsProblem(b.editor).value)
    else
      var r := Append(b, StoredQuestion(|b.questions| + 1, b.editor));
      assert r.questions[..|b.questions|] == b.questions;
      Ok(r)
  }

  /** The options of an accepted multiple-choice question are exactly the
      non-blank entries of the editor, in their original order. */
  lemma AddedOptionsAreNonBlankInOrder(b: Builder)
    requires AddQuestion(b).Ok? && b.editor.kind == Options
    ensures var q := AddQuestion(b).value.questions[|b.questions|];
            q.options == NonBlank(b.editor.options)
            && (forall k :: 0 <= k < |b.editor.options| && IsFilled(b.editor.options[k])
                  ==> NonBlank(b.editor.options[..k]) + [b.editor.options[k]] <= q.options)
  {
    NonBlankKeepsOrder(b.editor.options);
  }

  /** In a well-formed editor the correct index is always in range, so
      `addQuestion` never throws. */
  lemma WellFormedEditorNeverThrows(b: Builder)
    requires EditorWellFormed(b.editor)
    ensures AddQuestion(b) != Err(CorrectOptionOutOfRange)
  {
  }

  // ---------------------------------------------------------------- ids

  /** Ids are the 1-based positions: what adding alone produces. */
  predicate IdsArePositions(qs: seq<Question>) {
    forall k :: 0 <= k < |qs| ==> qs[k].id == k + 1
  }

  predicate IdsDistinct(qs: seq<Question>) {
    forall i, j :: 0 <= i < j < |qs| ==> qs[i].id != qs[j].id
  }

  /** Without removals, ids stay the positions and so stay distinct. */
  lemma AddKeepsIdsPositions(b: Builder)
    requires IdsArePositions(b.questions) && AddQuestion(b).Ok?
    ensures IdsArePositions(AddQuestion(b).value.questions)
    ensures IdsDistinct(AddQuestion(b).value.questions)
  {
  }

  // ---------------------------------------------------------------- removing

  /** The test removal filters by: the question does not carry `id`. */
  function OtherId(id: int): Question -> bool {
    (q: Question) => q.id != id
  }

  /** The question list without the questions carrying `id`. */
  function WithoutId(qs: seq<Question>, id: int): seq<Question> {
    Filter(OtherId(id), qs)
  }

  /** `removeQuestion`: drops the questions with that id and nothing else;
      the survivors keep their ids (no renumbering). */
  function RemoveQuestion(b: Builder, id: int): (r: Builder)
    ensures r.questions == WithoutId(b.questions, id)
    ensures forall q :: q in r.questions <==> q in b.questions && q.id != id
    ensures (forall k :: 0 <= k < |b.questions| ==> b.questions[k].id != id) ==> r == b
    ensures r == b.(questions := r.questions)
  {
    var qs := WithoutId(b.questions, id);
    if forall k :: 0 <= k < |b.questions| ==> b.questions[k].id != id then
      FilterKeepsAll(OtherId(id), b.questions);
      b.(questions := qs)
    else
      b.(questions := qs)
  }

  /** Removal preserves the order of the survivors: removing from a split
      list is removing from each part. */
  lemma RemoveKeepsOrder(front: seq<Question>, back: seq<Question>, id: int)
    ensures WithoutId(front + back, id) == WithoutId(front, id) + WithoutId(back, id)
  {
    FilterAppend(OtherId(id), front, back);
  }

  /** Removal keeps a list in which nobody carries the id. */
  lemma WithoutAbsentId(qs: seq<Question>, id: int)
    requires forall k :: 0 <= k < |qs| ==> qs[k].id != id
    ensures WithoutId(qs, id) == qs
  {
    assert forall k :: 0 <= k < |qs| ==> OtherId(id)(qs[k]);
    FilterKeepsAll(OtherId(id), qs);
  }

  /** Removal drops a single question carrying the id. */
  lemma WithoutOwnId(q: Question)
    ensures WithoutId([q], q.id) == []
  {
    FilterSingleton(OtherId(q.id), q);
  }

  /** Removing an id carried only by one question between two others takes
      out just that question. */
  lemma WithoutSoleCarrier(front: seq<Question>, q: Question, back: seq<Question>)
    requires forall k :: 0 <= k < |front| ==> front[k].id != q.id
    requires forall k :: 0 <= k < |back| ==> back[k].id != q.id
    ensures WithoutId(front + [q] + back, q.id) == front + back
  {
    var keep := OtherId(q.id);
    WithoutAbsentId(front, q.id);
    WithoutOwnId(q);
    FilterAppend(keep, front, [q]);
    assert Filter(keep, front + [q]) == front + [];
    assert front + [] == front;
    WithoutAbsentId(back, q.id);
    FilterAppend(keep, front + [q], back);
  }

  /** With ids equal to positions, removing an id takes out exactly that
      position. */
  lemma RemoveAtPosition(qs: seq<Question>, id: int)
    requires IdsArePositions(qs) && 1 <= id <= |qs|
    ensures WithoutId(qs, id) == qs[..id - 1] + qs[id..]
  {
    var front, back := qs[..id - 1], qs[id..];
    assert qs == front + [qs[id - 1]] + back;
    assert forall k :: 0 <= k < |front| ==> front[k].id != id;
    assert forall k :: 0 <= k < |back| ==> back[k].id == id + k + 1;
    WithoutSoleCarrier(front, qs[id - 1], back);
  }

  /** Removing any question but the last and then adding one gives two
      questions the same id: the new id is the list length plus one, which
      is the id the old last question still carries, since removal does
      not renumber. */
  lemma DuplicateIdAfterRemoveThenAdd(b: Builder, id: int)
    requires IdsArePositions(b.questions) && 1 <= id < |b.questions|
    requires AddQuestion(RemoveQuestion(b, id)).Ok?
    ensures var qs := AddQuestion(RemoveQuestion(b, id)).value.questions;
      && |qs| == |b.questions|
      && qs[|qs| - 2].id == |b.questions| && qs[|qs| - 1].id == |b.questions|
      && !IdsDistinct(qs)
  {
    var n := |b.questions|;
    var removed := RemoveQuestion(b, id);
    LastSurvivesRemoval(b.questions, id);
    var qs := AddQuestion(removed).value.questions;
    assert qs[..n - 1] == removed.questions;
    assert qs[n - 2] == removed.questions[n - 2];
  }

  /** Removing an id other than the last keeps the last question, id and
      all, at the new end of the list. */
  lemma LastSurvivesRemoval(qs: seq<Question>, id: int)
    requires IdsArePositions(qs) && 1 <= id < |qs|
    ensures var r := WithoutId(qs, id); |r| == |qs| - 1 && r[|r| - 1] == qs[|qs| - 1]
    ensures WithoutId(qs, id)[|qs| - 2].id == |qs|
  {
    RemoveAtPosition(qs, id);
  }

  // ---------------------------------------------------------------- finishing

  datatype FinishError = NoQuestions | IncompleteQuestions

  /** The options of a stored question as the game lists them: each keeps its
      position and text, and is marked correct when its position is the
      stored correct index. */
  function PublishedOptions(options: seq<string>, correct: int): (r: seq<GameOption>)
    ensures |r| == |options|
    ensures forall k :: 0 <= k < |r| ==> r[k].index == k && r[k].text == options[k]
    ensures forall k :: 0 <= k < |r| ==> (r[k].isCorrect <==> k == correct)
  {
    seq(|options|, k requires 0 <= k < |options| => GameOption(k, options[k], k == correct))
  }

  /** One stored question as it appears in the game: every question is worth
      two points and a text question publishes no options. */
  function PublishedQuestion(q: Question): (r: GameQuestion)
    ensures r.id == q.id && r.text == q.text && r.kind == q.kind && r.image == q.image
    ensures r.correctOption == q.correctOption && r.points == PointsPerQuestion
    ensures q.kind == Options ==> |r.options| == |q.options|
    ensures q.kind == TextAnswer ==> r.options == []
  {
    GameQuestion(q.id, q.text, q.kind, q.image,
                 if q.kind == Options then PublishedOptions(q.options, q.correctOption) else [],
                 q.correctOption, PointsPerQuestion)
  }

  /** A published question marks an option correct exactly when its stored
      index is in range, and then exactly one. */
  lemma MarkedCorrectIffInRange(q: Question)
    requires q.kind == Options
    ensures var opts := PublishedQuestion(q).options;
            && ((exists k :: 0 <= k < |opts| && opts[k].isCorrect) <==> 0 <= q.correctOption < |q.options|)
            && (forall i, j :: 0 <= i < |opts| && 0 <= j < |opts| && opts[i].isCorrect && opts[j].isCorrect ==> i == j)
  {
    var opts := PublishedQuestion(q).options;
    if 0 <= q.correctOption < |q.options| {
      assert opts[q.correctOption].isCorrect;
    }
  }

  /** How many stored questions are of the given kind. */
  function CountKind(qs: seq<Question>, kind: QuestionKind): (n: nat)
    ensures n <= |qs|
  {
    if qs == [] then 0
    else (if qs[0].kind == kind then 1 else 0) + CountKind(qs[1..], kind)
  }

  /** Every question is either multiple choice or text. */
  lemma {:induction false} KindCountsPartition(qs: seq<Question>)
    ensures CountKind(qs, Options) + CountKind(qs, TextAnswer) == |qs|
  {
    if qs != [] {
      KindCountsPartition(qs[1..]);
    }
  }

  /** The validation and payload part of `handleFinishCreator`. */
  function FinishCreator(b: Builder, messages: Messages): (r: Result<GameData, FinishError>)
    ensures |b.questions| == 0 <==> r == Err(NoQuestions)
    ensures 0 < |b.questions| < RequiredQuestions <==> r == Err(IncompleteQuestions)
    ensures r.Ok? <==> |b.questions| >= RequiredQuestions
    ensures r.Ok? ==>
      && r.value.gameInfo.Some?
      && r.value.gameInfo.value.totalQuestions == RequiredQuestions
      && r.value.gameInfo.value.totalPoints == PointsPerQuestion * |b.questions|
      && r.value.gameInfo.value.scoring == StandardScoring(messages)
      && r.value.gameInfo.value.title == b.title
      && r.value.gameInfo.value.creatorName == b.creatorName
      && r.value.gameInfo.value.theirName == b.theirName
      && r.value.messages == messages
      && |r.value.questions| == |b.questions|
      && (forall k :: 0 <= k < |b.questions| ==> r.value.questions[k] == PublishedQuestion(b.questions[k]))
      && r.value.stats.multipleChoiceQuestions == CountKind(b.questions, Options)
      && r.value.stats.textQuestions == CountKind(b.questions, TextAnswer)
      && r.value.stats.multipleChoiceQuestions + r.value.stats.textQuestions == |b.questions|
      && r.value.stats.totalPoints == r.value.gameInfo.value.totalPoints
  {
    if |b.questions| == 0 then Err(NoQuestions)
    else if |b.questions| < RequiredQuestions then Err(IncompleteQuestions)
    else
      var total := |b.questions| * PointsPerQuestion;
      KindCountsPartition(b.questions);
      Ok(GameData(
        Some(GameInfo(b.title, b.creatorName, b.theirName, RequiredQuestions, StandardScoring(messages), total)),
        seq(|b.questions|, k requires 0 <= k < |b.questions| => PublishedQuestion(b.questions[k])),
        messages,
        Stats(CountKind(b.questions, Options), CountKind(b.questions, TextAnswer), total)))
  }

  /** What the create request came back with. */
  datatype SubmitOutcome = Stored(id: Option<string>, gameId: Option<string>) | RequestFailed

  /** A returned id JavaScript treats as false: absent or empty. */
  predicate IdMissing(id: Option<string>) {
    id.None? || id.value == []
  }

  /** The game id the success branch of `handleFinishCreator` picks: the
      server's `id`, else its `gameId`, else a random one (passed in). */
  function ChosenId(id: Option<string>, gameId: Option<string>, randomId: string): (r: string)
    ensures !IdMissing(id) ==> r == id.value
    ensures IdMissing(id) && !IdMissing(gameId) ==> r == gameId.value
    ensures IdMissing(id) && IdMissing(gameId) ==> r == randomId
  {
    if !IdMissing(id) then id.value
    else if !IdMissing(gameId) then gameId.value
    else randomId
  }

  /** How the end of `handleFinishCreator` came out: the builder moved on
      with a share id, or saving the game threw and the builder stayed. */
  datatype Submission = Submitted(next: Builder, gameId: string) | StorageFailed(next: Builder)

  /** The end of `handleFinishCreator`.  The success branch picks an id and
      stores the game locally; a failed request, or a store that throws
      there, falls into the error branch, which picks a fresh random id
      (`retryId`) and stores again.  Only a store that succeeds reaches
      step 6; a store that throws in the error branch escapes the handler
      and the step is unchanged.  Whether each store succeeds is a
      parameter: browser storage is outside the model. */
  function CompleteSubmission(b: Builder, outcome: SubmitOutcome, randomId: string, retryId: string,
                              firstStoreOk: bool, retryStoreOk: bool): (r: Submission)
    ensures r.Submitted? <==> (outcome.Stored? && firstStoreOk) || retryStoreOk
    ensures r.Submitted? ==> r.next == b.(step := 6)
    ensures r.StorageFailed? ==> r.next == b
    ensures outcome.Stored? && firstStoreOk ==> r == Submitted(b.(step := 6), ChosenId(outcome.id, outcome.gameId, randomId))
    ensures !(outcome.Stored? && firstStoreOk) && r.Submitted? ==> r.gameId == retryId
  {
    if outcome.Stored? && firstStoreOk then
      Submitted(b.(step := 6), ChosenId(outcome.id, outcome.gameId, randomId))
    else if retryStoreOk then
      Submitted(b.(step := 6), retryId)
    else
      StorageFailed(b)
  }

  /** The share link never points at an empty id as long as the random ids
      are not empty, and a server that answers with an id has it used
      whenever the first store works. */
  lemma SubmittedIdNeverMissing(b: Builder, outcome: SubmitOutcome, randomId: string, retryId: string,
                                firstStoreOk: bool, retryStoreOk: bool)
    requires randomId != [] && retryId != []
    ensures var r := CompleteSubmission(b, outcome, randomId, retryId, firstStoreOk, retryStoreOk);
      && (r.Submitted? ==> r.gameId != [])
      && (outcome.Stored? && !IdMissing(outcome.id) && firstStoreOk ==> r == Submitted(b.(step := 6), outcome.id.value))
  {
  }

  // ---------------------------------------------------------------- stale index

  /** The editor's correct option `c` chose option text `options[c]`; once
      blanks are dropped it sits at this index. */
  function ReindexedCorrect(options: seq<string>, c: int): int
    requires 0 <= c < |options|
  {
    |NonBlank(options[..c])|
  }

  /** The chosen option survives the filter, at the reindexed position. */
  lemma ReindexedPointsAtChosenOption(options: seq<string>, c: int)
    requires 0 <= c < |options| && IsFilled(options[c])
    ensures 0 <= ReindexedCorrect(options, c) < |NonBlank(options)|
    ensures NonBlank(options)[ReindexedCorrect(options, c)] == options[c]
  {
    SplitAround(options, c);
  }

  /** `addQuestion` with the correct index moved along with its option. */
  function AddQuestionReindexed(b: Builder): (r: Result<Builder, AddError>)
    ensures r.Ok? <==> AddQuestion(b).Ok?
    ensures r.Ok? ==> |r.value.questions| == |b.questions| + 1
    ensures r.Err? ==> r == AddQuestion(b)
    ensures r.Ok? && b.editor.kind == Options ==>
      var q := r.value.questions[|b.questions|];
      0 <= q.correctOption < |q.options| && q.options[q.correctOption] == b.editor.options[b.editor.correctOption]
    ensures r.Ok? ==> r.value.questions[|b.questions|].options == AddQuestion(b).value.questions[|b.questions|].options
  {
    match AddQuestion(b)
    case Err(e) => Err(e)
    case Ok(_) =>
      var stored := StoredQuestion(|b.questions| + 1, b.editor);
      if b.editor.kind == Options then
        ReindexedPointsAtChosenOption(b.editor.options, b.editor.correctOption);
        Ok(Append(b, stored.(correctOption := ReindexedCorrect(b.editor.options, b.editor.correctOption))))
      else
        Ok(Append(b, stored))
  }

  /** As written, `addQuestion` keeps the editor's index after dropping
      blanks: with the second option chosen behind a blank first option, the
      stored index names the third. */
  lemma StaleCorrectOptionNamesAnotherOption(b: Builder, blank: string, x: string, y: string, z: string)
    requires IsFilled(b.editor.text) && b.editor.kind == Options
    requires b.editor.options == [blank, x, y, z] && b.editor.correctOption == 1
    requires IsBlank(blank) && IsFilled(x) && IsFilled(y) && IsFilled(z)
    ensures AddQuestion(b).Ok?
    ensures var q := AddQuestion(b).value.questions[|b.questions|];
            q.options == [x, y, z] && q.options[q.correctOption] == y
  {
    NonBlankDropsLeadingBlank(blank, x, y, z);
  }

  lemma NonBlankDropsLeadingBlank(blank: string, x: string, y: string, z: string)
    requires IsBlank(blank) && IsFilled(x) && IsFilled(y) && IsFilled(z)
    ensures NonBlank([blank, x, y, z]) == [x, y, z]
  {
    assert [blank, x, y, z][1..] == [x, y, z];
    FilterKeepsAll(IsFilled, [x, y, z]);
  }

  /** As written, the stored index can also fall past the end of the
      filtered list; then no published option is marked correct, so no
      answer to that question can score. */
  lemma StaleCorrectOptionPastTheEnd(b: Builder, x: string, blank1: string, blank2: string, y: string)
    requires IsFilled(b.editor.text) && b.editor.kind == Options
    requires b.editor.options == [x, blank1, blank2, y] && b.editor.correctOption == 3
    requires IsFilled(x) && IsBlank(blank1) && IsBlank(blank2) && IsFilled(y)
    ensures AddQuestion(b).Ok?
    ensures var q := AddQuestion(b).value.questions[|b.questions|];
            q.options == [x, y] && q.correctOption == 3
            && forall o :: o in PublishedQuestion(q).options ==> !o.isCorrect
  {
    NonBlankDropsInnerBlanks(x, blank1, blank2, y);
  }

  lemma NonBlankDropsInnerBlanks(x: string, blank1: string, blank2: string, y: string)
    requires IsFilled(x) && IsBlank(blank1) && IsBlank(blank2) && IsFilled(y)
    ensures NonBlank([x, blank1, blank2, y]) == [x, y]
  {
    assert [x, blank1, blank2, y] == [x] + [blank1] + [blank2] + [y];
    FilterSingleton(IsFilled, x);
    FilterSingleton(IsFilled, blank1);
    FilterSingleton(IsFilled, blank2);
    FilterSingleton(IsFilled, y);
    FilterAppend(IsFilled, [x], [blank1]);
    FilterAppend(IsFilled, [x] + [blank1], [blank2]);
    FilterAppend(IsFilled, [x] + [blank1] + [blank2], [y]);
  }
}

=== FILE: draft.dfy ===
/** The fixed-five-field quiz editor of Draft.jsx: a names step, five
    fields edited one at a time (free text or a 2-4 option choice), a reveal
    step, and a publish call gated on the reveal text and an access token.

    This editor keys the correct answer of a choice field by its TEXT,
    unlike the builder of src/Create.jsx, which keys it by index.
 */
module Draft {
  import opened Outcomes
  import opened Text
  import opened Seqs

  datatype FieldType = TEXT | SELECT

  datatype Field = Field(
    id: int,
    labelText: string,
    ftype: FieldType,
    order: int,
    options: seq<string>,
    correctAnswer: string)

  datatype UserDetails = UserDetails(yourName: string, yourSpouseName: string)

  datatype Reveal = Reveal(revealText: string, revealImage: string)

  /** The editor's state.  The access token lives outside it and is passed
      to `Publish`. */
  datatype Form = Form(
    step: int,
    user: UserDetails,
    fields: seq<Field>,
    currentField: int,
    revealInfo: Reveal,
    showAuthModal: bool,
    loading: bool,
    publishedFormId: Option<string>)

  const FieldCount: int := 5
  const MinOptions: int := 2
  const MaxOptions: int := 4

  /** Field `n` (1-based) as the editor creates it: an empty text field. */
  function BlankField(n: int): Field {
    Field(n, "", TEXT, n, [], "")
  }

  /** The state the editor mounts with: the names step, empty names, five
      empty free-text fields numbered 1 to 5 (none of which would pass
      validation yet), the first one current, and nothing published. */
  function InitialForm(): (r: Form)
    ensures Valid(r) && r.step == 1 && r.currentField == 0
    ensures r.user == UserDetails("", "") && r.revealInfo == Reveal("", "")
    ensures !r.loading && !r.showAuthModal && r.publishedFormId.None?
    ensures forall i :: 0 <= i < FieldCount ==>
              && r.fields[i].id == i + 1 && r.fields[i].order == i + 1 && r.fields[i].ftype == TEXT
              && r.fields[i].labelText == "" && r.fields[i].options == [] && r.fields[i].correctAnswer == ""
    ensures forall i :: 0 <= i < FieldCount ==> FieldProblem(r.fields[i]) == Some(MissingQuestion)
  {
    Form(1, UserDetails("", ""),
         [BlankField(1), BlankField(2), BlankField(3), BlankField(4), BlankField(5)],
         0, Reveal("", ""), false, false, None)
  }

  /** The shape the editor always keeps: five fields and a current index
      among them. */
  predicate Valid(f: Form) {
    |f.fields| == FieldCount && 0 <= f.currentField < FieldCount
  }

  function Current(f: Form): Field
    requires Valid(f)
  {
    f.fields[f.currentField]
  }

  /** Replace the current field, leaving everything else alone: the other
      four fields and every part of the form but its field list. */
  function WithCurrent(f: Form, fld: Field): (r: Form)
    requires Valid(f)
    ensures Valid(r) && Current(r) == fld && r.currentField == f.currentField
    ensures forall i :: 0 <= i < FieldCount && i != f.currentField ==> r.fields[i] == f.fields[i]
    ensures r.(fields := f.fields) == f
  {
    f.(fields := f.fields[f.currentField := fld])
  }

  // ---------------------------------------------------------------- defaults

  /** Every entry keeps a character `trim` does not remove. */
  predicate AllFilled(options: seq<string>) {
    forall k :: 0 <= k < |options| ==> IsFilled(options[k])
  }

  /** A string ending in a character `trim` keeps is not blank. */
  lemma EndsFilled(o: string)
    requires o != [] && !IsSpace(o[|o| - 1])
    ensures IsFilled(o)
  {
    FilledIfSomeNonSpace(o, |o| - 1);
  }

  /** The suggestions for field 1, "where did we meet". */
  function MeetingOptions(): (r: seq<string>)
    ensures |r| == 4 && AllFilled(r)
  {
    var r := ["At a coffee shop \U{2615}", "Through mutual friends \U{1F465}", "At work \U{1F4BC}", "Online \U{1F4BB}"];
    EndsFilled(r[0]); EndsFilled(r[1]); EndsFilled(r[2]); EndsFilled(r[3]);
    r
  }

  /** The suggestions for field 2, naming the couple. */
  function FellFirstOptions(you: string, spouse: string): (r: seq<string>)
    ensures |r| == 3 && AllFilled(r)
  {
    var r := [you + " \U{1F495}", spouse + " \U{2764}\U{FE0F}", "Both at the same time \U{1F498}"];
    EndsFilled(r[0]); EndsFilled(r[1]); EndsFilled(r[2]);
    r
  }

  /** The suggestions for field 3, naming the couple. */
  function SaidFirstOptions(you: string, spouse: string): (r: seq<string>)
    ensures |r| == 3 && AllFilled(r)
  {
    var r := [you + " said it first \U{1F60A}", spouse + " said it first \U{1F496}", "We said it together \U{1F49E}"];
    EndsFilled(r[0]); EndsFilled(r[1]); EndsFilled(r[2]);
    r
  }

  /** The suggestions for field 4. */
  function FavouriteThingOptions(): (r: seq<string>)
    ensures |r| == 4 && AllFilled(r)
  {
    var r := ["Their smile \U{1F60A}", "Their kindness \U{1F49D}", "The way they care for me \U{1F495}", "Everything about them \U{1F496}"];
    EndsFilled(r[0]); EndsFilled(r[1]); EndsFilled(r[2]); EndsFilled(r[3]);
    r
  }

  /** The suggestions for field 5. */
  function DestinationOptions(): (r: seq<string>)
    ensures |r| == 4 && AllFilled(r)
  {
    var r := ["Paris \U{1F1EB}\U{1F1F7}", "Maldives \U{1F3DD}\U{FE0F}", "Japan \U{1F1EF}\U{1F1F5}", "Switzerland \U{1F3D4}\U{FE0F}"];
    EndsFilled(r[0]); EndsFilled(r[1]); EndsFilled(r[2]); EndsFilled(r[3]);
    r
  }

  /** The fallback past the end of the table. */
  function FallbackOptions(): (r: seq<string>)
    ensures |r| == 4 && AllFilled(r)
  {
    var r := ["Option 1", "Option 2", "Option 3", "Option 4"];
    EndsFilled(r[0]); EndsFilled(r[1]); EndsFilled(r[2]); EndsFilled(r[3]);
    r
  }

  /** `getDefaultOptions(index)`: the suggested options installed when a
      field becomes a choice field.  Fields 1 and 2 (0-based) get three, the
      others four, and none is blank, so a fresh choice field already has
      enough filled options.  An empty name is replaced by "You" or "Your
      Spouse". */
  function DefaultOptions(index: int, user: UserDetails): (r: seq<string>)
    ensures |r| == (if index == 1 || index == 2 then 3 else 4)
    ensures AllFilled(r)
  {
    var you := if user.yourName != "" then user.yourName else "You";
    var spouse := if user.yourSpouseName != "" then user.yourSpouseName else "Your Spouse";
    if index == 0 then MeetingOptions()
    else if index == 1 then FellFirstOptions(you, spouse)
    else if index == 2 then SaidFirstOptions(you, spouse)
    else if index == 3 then FavouriteThingOptions()
    else if index == 4 then DestinationOptions()
    else FallbackOptions()
  }

  // ---------------------------------------------------------------- field edits

  /** `updateFieldLabel`: only the current field's question text changes. */
  function UpdateFieldLabel(f: Form, value: string): (r: Form)
    requires Valid(f)
    ensures Valid(r) && Current(r) == Current(f).(labelText := value)
    ensures r == WithCurrent(f, Current(r))
    ensures r.fields[..f.currentField] == f.fields[..f.currentField]
    ensures r.fields[f.currentField + 1..] == f.fields[f.currentField + 1..]
  {
    WithCurrent(f, Current(f).(labelText := value))
  }

  /** `updateFieldOption`: retype one option.  The stored correct answer is
      NOT updated, so it may stop naming any option. */
  function UpdateFieldOption(f: Form, optionIndex: int, value: string): (r: Form)
    requires Valid(f) && 0 <= optionIndex < |Current(f).options|
    ensures Valid(r) && |Current(r).options| == |Current(f).options|
    ensures Current(r).options[optionIndex] == value
    ensures forall k :: 0 <= k < |Current(f).options| && k != optionIndex ==> Current(r).options[k] == Current(f).options[k]
    ensures Current(r) == Current(f).(options := Current(r).options)
    ensures r == WithCurrent(f, Current(r))
  {
    WithCurrent(f, Current(f).(options := Current(f).options[optionIndex := value]))
  }

  datatype OptionError = MinimumOptions | MaximumOptions

  /** `addFieldOption`: one more blank option, up to four. */
  function AddFieldOption(f: Form): (r: Result<Form, OptionError>)
    requires Valid(f)
    ensures r.Err? <==> |Current(f).options| >= MaxOptions
    ensures r.Err? ==> r.error == MaximumOptions
    ensures r.Ok? ==> Valid(r.value) && Current(r.value).options == Current(f).options + [""]
    ensures r.Ok? ==> Current(r.value) == Current(f).(options := Current(r.value).options)
    ensures r.Ok? ==> r.value == WithCurrent(f, Current(r.value))
  {
    if |Current(f).options| < MaxOptions then
      Ok(WithCurrent(f, Current(f).(options := Current(f).options + [""])))
    else
      Err(MaximumOptions)
  }

  /** The option list without the entry at `index`, as the removal
      handler's filter on positions builds it (nothing is dropped when the
      index names no option). */
  function WithoutIndex(options: seq<string>, index: int): (r: seq<string>)
    ensures 0 <= index < |options| ==> |r| == |options| - 1
    ensures !(0 <= index < |options|) ==> r == options
    ensures 0 <= index < |options| ==> forall k :: 0 <= k < |r| ==> r[k] == (if k < index then options[k] else options[k + 1])
  {
    if 0 <= index < |options| then options[..index] + options[index + 1..] else options
  }

  /** `removeFieldOption` as written.  `newFields` is a shallow copy, so
      `fields[currentField]` is the object whose options were just
      filtered: the option it compares with the correct answer is the one
      that moved into the removed slot, not the removed one. */
  function RemoveFieldOption(f: Form, optionIndex: int): (r: Result<Form, OptionError>)
    requires Valid(f)
    ensures r.Err? <==> |Current(f).options| <= MinOptions
    ensures r.Err? ==> r.error == MinimumOptions
    ensures r.Ok? ==> Valid(r.value) && Current(r.value).options == WithoutIndex(Current(f).options, optionIndex)
    ensures r.Ok? ==>
      var after := Current(r.value).options;
      Current(r.value).correctAnswer ==
        if 0 <= optionIndex < |after| && after[optionIndex] == Current(f).correctAnswer then ""
        else Current(f).correctAnswer
    ensures r.Ok? ==> Current(r.value) == Current(f).(options := Current(r.value).options,
                                                         correctAnswer := Current(r.value).correctAnswer)
    ensures r.Ok? ==> r.value == WithCurrent(f, Current(r.value))
  {
    var fld := Current(f);
    if |fld.options| > MinOptions then
      var kept := WithoutIndex(fld.options, optionIndex);
      var looked := if 0 <= optionIndex < |kept| then Some(kept[optionIndex]) else None;
      var answer := if looked == Some(fld.correctAnswer) then "" else fld.correctAnswer;
      Ok(WithCurrent(f, fld.(options := kept, correctAnswer := answer)))
    else
      Err(MinimumOptions)
  }

  /** `removeFieldOption` as evidently intended: the option removed is the
      one compared with the correct answer. */
  function RemoveFieldOptionIntended(f: Form, optionIndex: int): (r: Result<Form, OptionError>)
    requires Valid(f)
    ensures r.Err? <==> RemoveFieldOption(f, optionIndex).Err?
    ensures r.Ok? ==> Valid(r.value) && Current(r.value).options == WithoutIndex(Current(f).options, optionIndex)
    ensures r.Ok? ==>
      Current(r.value).correctAnswer ==
        if 0 <= optionIndex < |Current(f).options| && Current(f).options[optionIndex] == Current(f).correctAnswer then ""
        else Current(f).correctAnswer
    ensures r.Ok? ==> Current(r.value) == Current(f).(options := Current(r.value).options,
                                                         correctAnswer := Current(r.value).correctAnswer)
    ensures r.Ok? ==> r.value == WithCurrent(f, Current(r.value))
  {
    var fld := Current(f);
    if |fld.options| > MinOptions then
      var removed := if 0 <= optionIndex < |fld.options| then Some(fld.options[optionIndex]) else None;
      var answer := if removed == Some(fld.correctAnswer) then "" else fld.correctAnswer;
      Ok(WithCurrent(f, fld.(options := WithoutIndex(fld.options, optionIndex), correctAnswer := answer)))
    else
      Err(MinimumOptions)
  }

  /** The two removals refuse alike and remove the same option; they differ
      at most in whether the correct answer is cleared. */
  lemma RemovalsDifferOnlyInAnswer(f: Form, optionIndex: int)
    requires Valid(f)
    ensures RemoveFieldOption(f, optionIndex).Ok? <==> RemoveFieldOptionIntended(f, optionIndex).Ok?
    ensures RemoveFieldOption(f, optionIndex).Ok? ==>
      var asWritten := RemoveFieldOption(f, optionIndex).value;
      var intended := RemoveFieldOptionIntended(f, optionIndex).value;
      && Current(intended).options == Current(asWritten).options
      && intended == WithCurrent(asWritten, Current(asWritten).(correctAnswer := Current(intended).correctAnswer))
  {
  }

  /** The correct answer is empty or names one of the options. */
  predicate AnswerNamesOption(fld: Field) {
    fld.correctAnswer == "" || fld.correctAnswer in fld.options
  }

  /** With the intended removal the correct answer never dangles: if it named
      an option before, it is cleared or still names one afterwards. */
  lemma IntendedRemovalNeverDangles(f: Form, optionIndex: int)
    requires Valid(f) && AnswerNamesOption(Current(f))
    requires RemoveFieldOptionIntended(f, optionIndex).Ok?
    ensures AnswerNamesOption(Current(RemoveFieldOptionIntended(f, optionIndex).value))
  {
    var fld := Current(f);
    var after := Current(RemoveFieldOptionIntended(f, optionIndex).value);
    if after.correctAnswer != "" {
      var j :| 0 <= j < |fld.options| && fld.options[j] == fld.correctAnswer;
      if !(0 <= optionIndex < |fld.options|) {
        assert after.options[j] == fld.correctAnswer;
      } else if j < optionIndex {
        assert after.options[j] == fld.correctAnswer;
      } else {
        assert after.options[j - 1] == fld.correctAnswer;
      }
    }
  }

  /** As written, removing the option that IS the correct answer leaves the
      answer in place, naming an option that no longer exists... */
  lemma RemovingCorrectOptionLeavesItDangling(f: Form, a: string, b: string, c: string)
    requires Valid(f) && Current(f).options == [a, b, c] && Current(f).correctAnswer == a
    requires a != "" && a != b && a != c
    ensures RemoveFieldOption(f, 0).Ok?
    ensures var after := Current(RemoveFieldOption(f, 0).value);
            after.options == [b, c] && after.correctAnswer == a && !AnswerNamesOption(after)
  {
  }

  /** ...and removing the option before the correct one clears an answer
      that still names an option. */
  lemma RemovingNeighbourClearsCorrectAnswer(f: Form, a: string, b: string, c: string)
    requires Valid(f) && Current(f).options == [a, b, c] && Current(f).correctAnswer == b
    ensures RemoveFieldOption(f, 0).Ok?
    ensures var after := Current(RemoveFieldOption(f, 0).value);
            after.options == [b, c] && after.correctAnswer == ""
  {
  }

  /** `changeFieldType`: switching to a choice field installs the suggested
      options, switching to text drops them; both clear the correct answer.
      Selecting the type the field already has changes nothing. */
  function ChangeFieldType(f: Form, t: FieldType): (r: Form)
    requires Valid(f)
    ensures Valid(r) && Current(r).ftype == t
    ensures Current(f).ftype == t ==> r == f
    ensures Current(f).ftype != t && t == SELECT ==>
      Current(r).options == DefaultOptions(f.currentField, f.user) && Current(r).correctAnswer == ""
    ensures Current(f).ftype != t && t == TEXT ==> Current(r).options == [] && Current(r).correctAnswer == ""
    ensures Current(r).labelText == Current(f).labelText && r == WithCurrent(f, Current(r))
  {
    var fld := Current(f);
    if fld.ftype == t then
      assert f.fields[f.currentField := fld] == f.fields;
      f
    else if t == SELECT then
      WithCurrent(f, fld.(ftype := SELECT, options := DefaultOptions(f.currentField, f.user), correctAnswer := ""))
    else
      WithCurrent(f, fld.(ftype := t, options := [], correctAnswer := ""))
  }

  /** The answer as `setCorrectAnswer` stores it: one surrounding quote
      stripped from each end, then trimmed. */
  function CleanAnswer(answer: string): (r: string)
    ensures r != [] ==> !IsSpace(r[0]) && !IsSpace(r[|r| - 1])
    ensures |r| <= |answer|
  {
    Trim(StripQuotes(answer))
  }

  /** `setCorrectAnswer`: only the current field's answer changes. */
  function SetCorrectAnswer(f: Form, answer: string): (r: Form)
    requires Valid(f)
    ensures Valid(r) && Current(r) == Current(f).(correctAnswer := CleanAnswer(answer))
    ensures r == WithCurrent(f, Current(r))
  {
    WithCurrent(f, Current(f).(correctAnswer := CleanAnswer(answer)))
  }

  /** Clicking an option whose text has no surrounding white space or quotes
      stores that text exactly, so the answer names the option. */
  lemma ChoosingCleanOptionStoresIt(f: Form, k: int)
    requires Valid(f) && 0 <= k < |Current(f).options|
    requires var o := Current(f).options[k];
             o != [] && !IsSpace(o[0]) && !IsSpace(o[|o| - 1]) && !IsQuote(o[0]) && !IsQuote(o[|o| - 1])
    ensures Current(SetCorrectAnswer(f, Current(f).options[k])).correctAnswer == Current(f).options[k]
    ensures AnswerNamesOption(Current(SetCorrectAnswer(f, Current(f).options[k])))
  {
    TrimOfClean(Current(f).options[k]);
  }

  /** A quoted option is stored without its quotes, so the stored answer
      names no option unless another option is exactly the unquoted word. */
  lemma ChoosingQuotedOptionDoesNotNameIt(f: Form, word: string)
    requires Valid(f) && "\"" + word + "\"" in Current(f).options && word !in Current(f).options
    requires word != [] && !IsSpace(word[0]) && !IsSpace(word[|word| - 1])
    ensures Current(SetCorrectAnswer(f, "\"" + word + "\"")).correctAnswer == word
    ensures !AnswerNamesOption(Current(SetCorrectAnswer(f, "\"" + word + "\"")))
  {
    var quoted := "\"" + word + "\"";
    assert StripQuotes(quoted) == word by {
      assert quoted[1..|quoted| - 1] == word;
    }
    TrimOfClean(word);
    assert |word| < |quoted|;
  }

  // ---------------------------------------------------------------- validation

  datatype FieldError = MissingQuestion | NotEnoughOptions | MissingCorrectAnswer

  /** The checks `goToNextField` and `handleMoveToReveal` make on one field,
      in order; `None` when it passes.  Only non-blankness of the correct
      answer is checked, not that it names an option. */
  function FieldProblem(fld: Field): (r: Option<FieldError>)
    ensures r.None? <==> IsFilled(fld.labelText) &&
                         (fld.ftype == SELECT ==> |NonBlank(fld.options)| >= MinOptions && IsFilled(fld.correctAnswer))
  {
    if IsBlank(fld.labelText) then Some(MissingQuestion)
    else if fld.ftype == SELECT && |NonBlank(fld.options)| < MinOptions then Some(NotEnoughOptions)
    else if fld.ftype == SELECT && IsBlank(fld.correctAnswer) then Some(MissingCorrectAnswer)
    else None
  }

  /** Editing an option can leave a passing field whose correct answer names
      no option: validation does not notice. */
  lemma EditedOptionLeavesAnswerDangling(f: Form, a: string, b: string, v: string)
    requires Valid(f) && Current(f).ftype == SELECT && IsFilled(Current(f).labelText)
    requires Current(f).options == [a, b] && Current(f).correctAnswer == a
    requires IsFilled(a) && IsFilled(b) && IsFilled(v) && a != b && a != v
    ensures var after := Current(UpdateFieldOption(f, 0, v));
            FieldProblem(after).None? && !AnswerNamesOption(after)
  {
    var after := Current(UpdateFieldOption(f, 0, v));
    assert after.options == [v, b];
    FilterKeepsAll(IsFilled, [v, b]);
  }

  // ---------------------------------------------------------------- navigation

  /** `goToNextField`: refuse on a failing field; otherwise move on, or to
      the reveal step from the last field. */
  function GoToNextField(f: Form): (r: Result<Form, FieldError>)
    requires Valid(f)
    ensures r.Err? <==> FieldProblem(Current(f)).Some?
    ensures r.Err? ==> r.error == FieldProblem(Current(f)).value
    ensures r.Ok? && f.currentField < FieldCount - 1 ==> r.value == f.(currentField := f.currentField + 1)
    ensures r.Ok? && f.currentField == FieldCount - 1 ==> r.value == f.(step := 3)
  {
    match FieldProblem(Current(f))
    case Some(e) => Err(e)
    case None =>
      if f.currentField < FieldCount - 1 then Ok(f.(currentField := f.currentField + 1))
      else Ok(f.(step := 3))
  }

  /** `goToPrevField`: always allowed; from the first field back to the
      names step. */
  function GoToPrevField(f: Form): (r: Form)
    requires Valid(f)
    ensures Valid(r) && r.fields == f.fields
    ensures f.currentField > 0 ==> r == f.(currentField := f.currentField - 1)
    ensures f.currentField == 0 ==> r == f.(step := 1)
  {
    if f.currentField > 0 then f.(currentField := f.currentField - 1) else f.(step := 1)
  }

  /** `goToField`: the progress dots jump to any field. */
  function GoToField(f: Form, index: int): (r: Form)
    requires Valid(f) && 0 <= index < FieldCount
    ensures Valid(r) && r.currentField == index && r == f.(currentField := index)
  {
    f.(currentField := index)
  }

  /** Going forward and then back again returns to exactly the same state:
      navigation never clears a field. */
  lemma NextThenPrevIsIdentity(f: Form)
    requires Valid(f) && f.currentField < FieldCount - 1 && GoToNextField(f).Ok?
    ensures GoToPrevField(GoToNextField(f).value) == f
  {
  }

  /** Going back and then forward again returns to the same state whenever
      the earlier field still passes its checks. */
  lemma PrevThenNextIsIdentity(f: Form)
    requires Valid(f) && f.currentField > 0 && FieldProblem(f.fields[f.currentField - 1]).None?
    ensures GoToNextField(GoToPrevField(f)) == Ok(f)
  {
  }

  datatype StartError = MissingNames

  /** `handleStartQuestions`: both names are needed. */
  function StartQuestions(f: Form): (r: Result<Form, StartError>)
    ensures r.Ok? <==> IsFilled(f.user.yourName) && IsFilled(f.user.yourSpouseName)
    ensures r.Ok? ==> r.value == f.(step := 2)
  {
    if IsBlank(f.user.yourName) || IsBlank(f.user.yourSpouseName) then Err(MissingNames)
    else Ok(f.(step := 2))
  }

  /** Back on the first field returns to the names step: it undoes starting
      the questions exactly, fields and position included. */
  lemma BackUndoesStart(f: Form)
    requires Valid(f) && f.step == 1 && f.currentField == 0
    requires StartQuestions(f).Ok?
    ensures GoToPrevField(StartQuestions(f).value) == f
  {
  }

  /** A field named by `handleMoveToReveal` as the first one failing. */
  datatype Problem = Problem(field: int, error: FieldError)

  /** `handleMoveToReveal`: check the fields in order; on the first failing
      one, show it (step 2, that field current) and report it; if all pass,
      move to the reveal step. No button or effect of the editor calls it:
      the reveal step is reached through `GoToNextField` on the last field,
      which checks that field alone (see `SkippingFieldsReachesReveal`). */
  method MoveToReveal(f: Form) returns (next: Form, report: Option<Problem>)
    requires Valid(f)
    ensures report.None? <==> forall i :: 0 <= i < FieldCount ==> FieldProblem(f.fields[i]).None?
    ensures report.None? ==> next == f.(step := 3)
    ensures report.Some? ==>
      && 0 <= report.value.field < FieldCount
      && FieldProblem(f.fields[report.value.field]) == Some(report.value.error)
      && (forall j :: 0 <= j < report.value.field ==> FieldProblem(f.fields[j]).None?)
      && next == f.(currentField := report.value.field, step := 2)
  {
    var i := 0;
    while i < |f.fields|
      invariant 0 <= i <= |f.fields|
      invariant forall j :: 0 <= j < i ==> FieldProblem(f.fields[j]).None?
    {
      var problem := FieldProblem(f.fields[i]);
      if problem.Some? {
        return f.(currentField := i, step := 2), Some(Problem(i, problem.value));
      }
      i := i + 1;
    }
    return f.(step := 3), None;
  }

  // ---------------------------------------------------------------- option bounds

  /** A choice field holds between two and four options. */
  predicate OptionsBounded(fld: Field) {
    fld.ftype == SELECT ==> MinOptions <= |fld.options| <= MaxOptions
  }

  predicate AllBounded(f: Form) {
    forall i :: 0 <= i < |f.fields| ==> OptionsBounded(f.fields[i])
  }

  /** The user actions the question step offers. */
  datatype Action =
    | SetLabel(text: string)
    | SetOption(index: int, value: string)
    | AddOption
    | RemoveOption(index: int)
    | ChangeType(t: FieldType)
    | ChooseAnswer(answer: string)
    | Next
    | Prev
    | Jump(index: int)

  /** One action; a refused action, and an input the screen does not offer
      (an option or field index out of range), leaves the form unchanged.
      Option removal is the corrected `RemoveFieldOptionIntended`; by
      `RemovalsDifferOnlyInAnswer` it removes exactly the option the
      as-written handler removes, so the option bounds proved below hold for
      both. */
  function Apply(f: Form, a: Action): (r: Form)
    requires Valid(f)
    ensures Valid(r)
    ensures a.Next? || a.Prev? || a.Jump? ==> r.fields == f.fields
    ensures !(a.Next? || a.Prev? || a.Jump?) ==> r == WithCurrent(f, Current(r))
    ensures !(a.Next? || a.Prev?) ==> r.step == f.step
    ensures r.user == f.user && r.revealInfo == f.revealInfo
    ensures r.(fields := f.fields, currentField := f.currentField, step := f.step) == f
  {
    match a
    case SetLabel(v) => UpdateFieldLabel(f, v)
    case SetOption(k, v) => if 0 <= k < |Current(f).options| then UpdateFieldOption(f, k, v) else f
    case AddOption => (match AddFieldOption(f) case Ok(g) => g case Err(_) => f)
    case RemoveOption(k) => (match RemoveFieldOptionIntended(f, k) case Ok(g) => g case Err(_) => f)
    case ChangeType(t) => ChangeFieldType(f, t)
    case ChooseAnswer(s) => SetCorrectAnswer(f, s)
    case Next => (match GoToNextField(f) case Ok(g) => g case Err(_) => f)
    case Prev => GoToPrevField(f)
    case Jump(k) => if 0 <= k < FieldCount then GoToField(f, k) else f
  }

  /** Every action keeps each choice field within two to four options. */
  lemma ApplyKeepsBounds(f: Form, a: Action)
    requires Valid(f) && AllBounded(f)
    ensures AllBounded(Apply(f, a))
  {
    var r := Apply(f, a);
    forall i | 0 <= i < |r.fields|
      ensures OptionsBounded(r.fields[i])
    {
      if i != f.currentField {
        assert r.fields[i] == f.fields[i];
      } else {
        assert OptionsBounded(f.fields[i]);
      }
    }
  }

  function Run(f: Form, actions: seq<Action>): (r: Form)
    requires Valid(f)
    ensures Valid(r)
    ensures r.(fields := f.fields, currentField := f.currentField, step := f.step) == f
    ensures (forall k :: 0 <= k < |actions| ==> actions[k].Next? || actions[k].Prev? || actions[k].Jump?) ==> r.fields == f.fields
    decreases |actions|
  {
    if actions == [] then f else Run(Apply(f, actions[0]), actions[1..])
  }

  /** The progress dots jump to the last field without checking anything,
      and Next there checks only that field: a form with a failing earlier
      field still reaches the reveal step, with that field unchanged. */
  lemma SkippingFieldsReachesReveal(f: Form, i: int)
    requires Valid(f) && f.step == 2
    requires 0 <= i < FieldCount && FieldProblem(f.fields[i]).Some?
    requires FieldProblem(f.fields[FieldCount - 1]).None?
    ensures Run(f, [Jump(FieldCount - 1), Next]) == f.(currentField := FieldCount - 1, step := 3)
    ensures FieldProblem(Run(f, [Jump(FieldCount - 1), Next]).fields[i]).Some?
  {
    var last := GoToField(f, FieldCount - 1);
    assert [Jump(FieldCount - 1), Next][1..] == [Next];
    assert Run(last, [Next]) == Apply(last, Next);
  }

  /** From any bounded form, and in particular the initial one, no sequence
      of actions takes a choice field outside two to four options. */
  lemma {:induction false} RunKeepsBounds(f: Form, actions: seq<Action>)
    requires Valid(f) && AllBounded(f)
    ensures AllBounded(Run(f, actions))
    decreases |actions|
  {
    if actions != [] {
      ApplyKeepsBounds(f, actions[0]);
      RunKeepsBounds(Apply(f, actions[0]), actions[1..]);
    }
  }

  lemma InitialFormBounded()
    ensures Valid(InitialForm()) && AllBounded(InitialForm())
  {
  }

  // ---------------------------------------------------------------- publishing

  /** One field as sent to the server. */
  datatype FieldPayload = FieldPayload(
    labelText: string,
    ftype: FieldType,
    order: int,
    options: seq<string>,
    correctAnswer: string)

  /** The requests the publish handler sends, under one token. */
  datatype PublishRequest = PublishRequest(
    token: string,
    user: UserDetails,
    fields: seq<FieldPayload>,
    revealInfo: Reveal)

  /** One field as the publish handler converts it for the request body. */
  function PayloadOf(fld: Field): (r: FieldPayload)
    ensures r.labelText == fld.labelText && r.ftype == fld.ftype && r.order == fld.order
    ensures fld.ftype == TEXT ==> r.options == [] && r.correctAnswer == ""
    ensures fld.ftype == SELECT ==> (forall o :: o in r.options <==> o in fld.options && IsFilled(o))
    ensures fld.ftype == SELECT ==>
      forall k :: 0 <= k < |fld.options| && IsFilled(fld.options[k]) ==> NonBlank(fld.options[..k]) + [fld.options[k]] <= r.options
    ensures fld.ftype == SELECT ==> |r.options| == |NonBlank(fld.options)|
    ensures fld.ftype == SELECT ==> r.correctAnswer == Trim(fld.correctAnswer)
  {
    NonBlankKeepsOrder(fld.options);
    FieldPayload(fld.labelText, fld.ftype, fld.order,
                 if fld.ftype == SELECT then NonBlank(fld.options) else [],
                 if fld.ftype == SELECT then Trim(fld.correctAnswer) else "")
  }

  function FieldsPayload(fields: seq<Field>): (r: seq<FieldPayload>)
    ensures |r| == |fields|
    ensures forall i :: 0 <= i < |fields| ==> r[i] == PayloadOf(fields[i])
  {
    seq(|fields|, i requires 0 <= i < |fields| => PayloadOf(fields[i]))
  }

  /** A field that passes validation is sent with at least two options, none
      blank, and a non-blank trimmed correct answer. */
  lemma PassingFieldPayload(fld: Field)
    requires FieldProblem(fld).None? && fld.ftype == SELECT
    ensures |PayloadOf(fld).options| >= MinOptions
    ensures forall k :: 0 <= k < |PayloadOf(fld).options| ==> IsFilled(PayloadOf(fld).options[k])
    ensures PayloadOf(fld).correctAnswer != [] && Trim(PayloadOf(fld).correctAnswer) == PayloadOf(fld).correctAnswer
  {
    TrimIdempotent(fld.correctAnswer);
    BlankIffAllSpace(fld.correctAnswer);
  }

  /** A token JavaScript treats as false: none, or an empty one. */
  predicate TokenMissing(token: Option<string>) {
    token.None? || token.value == []
  }

  datatype PublishAttempt =
    | RevealMissing                                     // nothing changes, nothing is sent
    | NeedsLogin(next: Form)                             // the login dialog opens, nothing is sent
    | Sending(next: Form, request: PublishRequest)       // busy, requests under way

  /** The guards and payload of `handlePublishAllWithToken`: the reveal text
      first, then the token.  The fields are not validated again. */
  function Publish(f: Form, token: Option<string>): (r: PublishAttempt)
    ensures r.RevealMissing? <==> IsBlank(f.revealInfo.revealText)
    ensures r.NeedsLogin? <==> IsFilled(f.revealInfo.revealText) && TokenMissing(token)
    ensures r.NeedsLogin? ==> r.next == f.(showAuthModal := true)
    ensures r.Sending? ==> r.next == f.(loading := true)
    ensures r.Sending? ==> r.request.token == token.value && r.request.user == f.user && r.request.revealInfo == f.revealInfo
    ensures r.Sending? ==> r.request.fields == FieldsPayload(f.fields)
  {
    if IsBlank(f.revealInfo.revealText) then RevealMissing
    else if TokenMissing(token) then NeedsLogin(f.(showAuthModal := true))
    else Sending(f.(loading := true), PublishRequest(token.value, f.user, FieldsPayload(f.fields), f.revealInfo))
  }

  /** Publishing does not recheck the fields: a form with a field that never
      passed validation is still sent once the reveal text and token are
      there (the progress dots reach the last field without the others). */
  lemma PublishSkipsFieldValidation(f: Form, token: string)
    requires Valid(f) && IsBlank(f.fields[0].labelText) && IsFilled(f.revealInfo.revealText) && token != []
    ensures FieldProblem(f.fields[0]) == Some(MissingQuestion)
    ensures Publish(f, Some(token)).Sending?
  {
  }

  /** How the publish requests ended. */
  datatype PublishResponse = Created(formId: string) | Failed(status: int)

  /** The outcome of the requests: a created form records its id; a 401
      reopens the login dialog; any other failure only shows an error.  The
      draft itself is never lost. */
  function ApplyPublishResponse(f: Form, response: PublishResponse): (r: Form)
    ensures r.fields == f.fields && r.user == f.user && r.revealInfo == f.revealInfo && r.step == f.step
    ensures r.currentField == f.currentField
    ensures r.(loading := f.loading, showAuthModal := f.showAuthModal, publishedFormId := f.publishedFormId) == f
    ensures !r.loading
    ensures response.Created? ==> r.publishedFormId == Some(response.formId) && r.showAuthModal == f.showAuthModal
    ensures response.Failed? ==> r.publishedFormId == f.publishedFormId
    ensures r.showAuthModal == (f.showAuthModal || response == Failed(401))
  {
    match response
    case Created(id) => f.(loading := false, publishedFormId := Some(id))
    case Failed(status) => f.(loading := false, showAuthModal := f.showAuthModal || status == 401)
  }

  /** A publish round never corrupts the draft: from an idle form that is
      sent, whatever the server answers, the editor comes back with the same
      fields, names, reveal and position, still valid and within the option
      bounds; on success only the published id is new. */
  lemma PublishRoundKeepsDraft(f: Form, token: Option<string>, response: PublishResponse)
    requires Valid(f) && AllBounded(f) && !f.loading && Publish(f, token).Sending?
    ensures var g := ApplyPublishResponse(Publish(f, token).next, response);
      && Valid(g) && AllBounded(g) && !g.loading
      && g.(showAuthModal := f.showAuthModal, publishedFormId := f.publishedFormId) == f
      && (response.Created? ==> g == f.(publishedFormId := Some(response.formId)))
  {
  }
}

=== FILE: game.dfy ===
/** The serialised love-quiz game: the document the sequential builder
    (src/Create.jsx) produces and the quiz player (src/View.jsx) reads.
    Only the fields either side computes with or branches on are modelled;
    images are opaque payloads.
 */
module Game {
  import opened Outcomes

  /** Points a question is worth, and the number of questions a game needs. */
  const PointsPerQuestion: int := 2
  const RequiredQuestions: int := 5

  /** `type: 'options'` (multiple choice) or `type: 'text'` (free text). */
  datatype QuestionKind = Options | TextAnswer

  /** A score message shows either its text or its image. */
  datatype MessageKind = TextMessage | ImageMessage

  datatype Message = Message(text: string, image: Option<string>, kind: MessageKind, imageCaption: string)

  /** The creator's message for each result tier. */
  datatype Messages = Messages(perfect: Message, good: Message, low: Message)

  /** The three result tiers, best first. */
  datatype Tier = Perfect | Good | Low

  /** One tier of `scoringSystem`: its score range and its message. */
  datatype Band = Band(min: int, max: int, message: Message)

  datatype ScoringSystem = ScoringSystem(perfect: Band, good: Band, low: Band)

  /** One option of a published multiple-choice question. */
  datatype GameOption = GameOption(index: int, text: string, isCorrect: bool)

  datatype GameQuestion = GameQuestion(
    id: int,
    text: string,
    kind: QuestionKind,
    image: Option<string>,
    options: seq<GameOption>,
    correctOption: int,
    points: int)

  datatype GameInfo = GameInfo(
    title: string,
    creatorName: string,
    theirName: string,
    totalQuestions: int,
    scoring: ScoringSystem,
    totalPoints: int)

  datatype Stats = Stats(multipleChoiceQuestions: int, textQuestions: int, totalPoints: int)

  /** The whole document.  `gameInfo` is optional because the player copes
      with a document that lacks it. */
  datatype GameData = GameData(
    gameInfo: Option<GameInfo>,
    questions: seq<GameQuestion>,
    messages: Messages,
    stats: Stats)

  /** The band of a scoring system that belongs to a tier. */
  function BandOf(scoring: ScoringSystem, tier: Tier): Band {
    match tier
    case Perfect => scoring.perfect
    case Good => scoring.good
    case Low => scoring.low
  }

  /** The fixed bands every built game carries: perfect 8-10, good 5-7,
      low 0-4, each with the creator's message for that tier. */
  function StandardScoring(messages: Messages): (s: ScoringSystem)
    ensures BandOf(s, Perfect) == Band(8, 10, messages.perfect)
    ensures BandOf(s, Good) == Band(5, 7, messages.good)
    ensures BandOf(s, Low) == Band(0, 4, messages.low)
    ensures s.low.max + 1 == s.good.min && s.good.max + 1 == s.perfect.min
    ensures s.low.min == 0 && s.perfect.max == RequiredQuestions * PointsPerQuestion
  {
    ScoringSystem(
      Band(8, 10, messages.perfect),
      Band(5, 7, messages.good),
      Band(0, 4, messages.low))
  }
}

=== FILE: outcomes.dfy ===
/** Optional values and handler outcomes shared by every part of the model.

    A UI handler of the quiz either rejects the action (it shows an error
    dialog and leaves the state as it was) or produces the next state.  An
    `Err` therefore carries no state: the caller keeps the one it had.
 */
module Outcomes {

  /** A value that may be absent: JavaScript's `null`/`undefined`. */
  datatype Option<+T> = None | Some(value: T)

  /** The outcome of a handler: the next state, or the reason it refused. */
  datatype Result<+T, +E> = Ok(value: T) | Err(error: E)
}

=== FILE: published.dfy ===
/** The builder and the player together: what a game produced by
    `handleFinishCreator` in src/Create.jsx means once src/View.jsx plays
    it.  The builder stores a free-text question with correct index -1 and
    the player only ever offers option indices, so such a question cannot
    score; the bands the builder writes decide the result tier.
 */
module Published {
  import opened Outcomes
  import opened Game
  import opened Text
  import Create
  import View

  /** A free-text question is stored as the builder stores it: no options
      and correct index -1. */
  predicate TextQuestionsStored(qs: seq<Create.Question>) {
    forall k :: 0 <= k < |qs| && qs[k].kind == TextAnswer ==> qs[k].options == [] && qs[k].correctOption == -1
  }

  /** Adding a question keeps every free-text question in that shape. */
  lemma AddKeepsTextQuestionsStored(b: Create.Builder)
    requires TextQuestionsStored(b.questions) && Create.AddQuestion(b).Ok?
    ensures TextQuestionsStored(Create.AddQuestion(b).value.questions)
  {
    var qs := Create.AddQuestion(b).value.questions;
    forall k | 0 <= k < |qs| && qs[k].kind == TextAnswer
      ensures qs[k].options == [] && qs[k].correctOption == -1
    {
      if k < |b.questions| {
        assert qs[k] == qs[..|b.questions|][k];
      }
    }
  }

  /** So does removing questions. */
  lemma RemoveKeepsTextQuestionsStored(b: Create.Builder, id: int)
    requires TextQuestionsStored(b.questions)
    ensures TextQuestionsStored(Create.RemoveQuestion(b, id).questions)
  {
    var qs := Create.RemoveQuestion(b, id).questions;
    forall k | 0 <= k < |qs| && qs[k].kind == TextAnswer
      ensures qs[k].options == [] && qs[k].correctOption == -1
    {
      assert qs[k] in b.questions;
    }
  }

  /** In a built game the tiers split at 8 and 5 and the creator's message
      for the tier is the one shown. */
  lemma BuiltGameTiers(b: Create.Builder, messages: Messages, score: int)
    requires Create.FinishCreator(b, messages).Ok?
    ensures var game := Some(Create.FinishCreator(b, messages).value);
      && (View.ScoreLevel(game, score) == Perfect <==> score >= 8)
      && (View.ScoreLevel(game, score) == Good <==> 5 <= score < 8)
      && (View.ScoreLevel(game, score) == Low <==> score < 5)
      && View.ScoreMessage(game, score) ==
           Some(if score >= 8 then messages.perfect else if score >= 5 then messages.good else messages.low)
  {
    View.StandardTiers(Create.FinishCreator(b, messages).value, messages, score);
  }

  /** No consistent session on a built game scores above its `totalPoints`. */
  lemma ScoreWithinTotal(b: Create.Builder, messages: Messages, s: View.Session)
    requires Create.FinishCreator(b, messages).Ok?
    requires View.Consistent(s) && |s.answers| <= |b.questions|
    ensures 0 <= s.score <= Create.FinishCreator(b, messages).value.gameInfo.value.totalPoints
  {
    View.ScoreCountsCorrectAnswers(s);
  }

  /** Whatever option index the player selects on a free-text question of
      a built game, pressing Next adds nothing to the score. */
  lemma BuiltTextQuestionNeverScores(b: Create.Builder, messages: Messages, s: View.Session, pick: int)
    requires Create.FinishCreator(b, messages).Ok? && TextQuestionsStored(b.questions)
    requires 0 <= s.index < |b.questions| && b.questions[s.index].kind == TextAnswer
    requires 0 <= pick
    ensures var questions := Create.FinishCreator(b, messages).value.questions;
      && questions[s.index].options == []
      && View.HandleNext(View.HandleAnswerSelect(s, pick), questions).value.score == s.score
  {
    var questions := Create.FinishCreator(b, messages).value.questions;
    View.TextQuestionNeverScores(s, questions, pick);
  }

  /** A finished game with a free-text question can never be finished in
      the player: the question is published without options, so from the
      start screen no sequence of presses reaches the result screen, and no
      result tier is ever shown. */
  lemma TextQuestionBlocksResult(
    b: Create.Builder, messages: Messages, name: string, actions: seq<View.PlayAction>, k: int)
    requires Create.FinishCreator(b, messages).Ok?
    requires 0 <= k < |b.questions| && b.questions[k].kind == TextAnswer
    requires IsFilled(name)
    ensures View.HandleStart(View.SetPlayerName(View.InitialSession, name)).Ok?
    ensures var game := Create.FinishCreator(b, messages).value;
      var start := View.HandleStart(View.SetPlayerName(View.InitialSession, name)).value;
      View.PlayRun(start, game.questions, actions).screen == View.PlayingView
  {
    var game := Create.FinishCreator(b, messages).value;
    var start := View.HandleStart(View.SetPlayerName(View.InitialSession, name)).value;
    assert game.questions[k] == Create.PublishedQuestion(b.questions[k]);
    View.QuestionWithoutOptionsBlocksPlay(start, game.questions, actions, k);
  }

  /** With the reindexed add, the published question marks as correct the
      option the creator chose, so selecting it scores. */
  lemma ReindexedChoiceScores(b: Create.Builder)
    requires Create.AddQuestionReindexed(b).Ok? && b.editor.kind == Options
    ensures var q := Create.PublishedQuestion(Create.AddQuestionReindexed(b).value.questions[|b.questions|]);
      var k := q.correctOption;
      && 0 <= k < |q.options|
      && q.options[k].text == b.editor.options[b.editor.correctOption]
      && q.options[k].isCorrect
      && View.Award(q, k) == PointsPerQuestion
  {
  }

  /** As written, the player who selects the option the creator chose,
      behind a blank first option, is marked wrong. */
  lemma StaleIndexMarksChosenOptionWrong(b: Create.Builder, blank: string, x: string, y: string, z: string)
    requires IsFilled(b.editor.text) && b.editor.kind == Options
    requires b.editor.options == [blank, x, y, z] && b.editor.correctOption == 1
    requires IsBlank(blank) && IsFilled(x) && IsFilled(y) && IsFilled(z)
    ensures Create.AddQuestion(b).Ok?
    ensures var q := Create.PublishedQuestion(Create.AddQuestion(b).value.questions[|b.questions|]);
      && q.options[0].text == x && !q.options[0].isCorrect
      && View.Award(q, 0) == 0
  {
    Create.StaleCorrectOptionNamesAnotherOption(b, blank, x, y, z);
  }
}

=== FILE: seqs.dfy ===
/** `Array.prototype.filter` on sequences, and the facts about it that the
    handlers' contracts are built from: it keeps exactly the elements that
    pass, and it keeps them in their original order.
 */
module Seqs {

  /** `s.filter(p)`. */
  function Filter<T(!new)>(p: T -> bool, s: seq<T>): (r: seq<T>)
    ensures |r| <= |s|
    ensures forall x :: x in r <==> x in s && p(x)
    ensures forall k :: 0 <= k < |r| ==> p(r[k])
  {
    if s == [] then []
    else
      assert s == [s[0]] + s[1..];
      (if p(s[0]) then [s[0]] else []) + Filter(p, s[1..])
  }

  /** Filtering distributes over concatenation: the survivors of a prefix
      come before the survivors of the rest, so the order is preserved. */
  lemma {:induction false} FilterAppend<T(!new)>(p: T -> bool, a: seq<T>, b: seq<T>)
    ensures Filter(p, a + b) == Filter(p, a) + Filter(p, b)
  {
    if a == [] {
      assert a + b == b;
    } else {
      assert (a + b)[1..] == a[1..] + b;
      FilterAppend(p, a[1..], b);
    }
  }

  /** When every element passes, nothing is dropped. */
  lemma {:induction false} FilterKeepsAll<T(!new)>(p: T -> bool, s: seq<T>)
    requires forall k :: 0 <= k < |s| ==> p(s[k])
    ensures Filter(p, s) == s
  {
    if s != [] {
      FilterKeepsAll(p, s[1..]);
    }
  }

  /** A one-element sequence survives exactly when its element passes. */
  lemma FilterSingleton<T(!new)>(p: T -> bool, x: T)
    ensures Filter(p, [x]) == (if p(x) then [x] else [])
  {
    assert [x][1..] == [];
  }
}

=== FILE: text.dfy ===
/** The string operations the quiz handlers lean on: JavaScript's
    `String.prototype.trim`, the "blank" test (trimming leaves nothing) used
    by every validation, and the quote stripping applied to a chosen correct
    answer.
 */
module Text {
  import opened Seqs

  /** The characters `trim` removes: ECMAScript WhiteSpace and LineTerminator. */
  predicate IsSpace(c: char) {
    if c < '\U{00A0}' then c == ' ' || ('\t' <= c <= '\r')
    else
      || c == '\U{00A0}' || c == '\U{1680}' || ('\U{2000}' <= c <= '\U{200A}')
      || c == '\U{2028}' || c == '\U{2029}' || c == '\U{202F}' || c == '\U{205F}'
      || c == '\U{3000}' || c == '\U{FEFF}'
  }

  /** Every character of `s` is one `trim` removes. */
  predicate AllSpace(s: string) {
    forall k :: 0 <= k < |s| ==> IsSpace(s[k])
  }

  /** How many leading characters `trim` drops from `s`. */
  function LeadingSpaces(s: string): (n: nat)
    ensures n <= |s| && AllSpace(s[..n])
    ensures n < |s| ==> !IsSpace(s[n])
  {
    if s != [] && IsSpace(s[0]) then LeadingSpaces(s[1..]) + 1 else 0
  }

  /** `s.trimStart()`: the suffix of `s` left after its leading white space. */
  function TrimStart(s: string): (r: string)
    ensures |r| <= |s| && r == s[|s| - |r|..]
    ensures AllSpace(s[..|s| - |r|])
    ensures r != [] ==> !IsSpace(r[0])
  {
    s[LeadingSpaces(s)..]
  }

  /** `s.trimEnd()`: the prefix of `s` left after its trailing white space. */
  function TrimEnd(s: string): (r: string)
    ensures |r| <= |s| && r == s[..|r|]
    ensures AllSpace(s[|r|..])
    ensures r != [] ==> !IsSpace(r[|r| - 1])
  {
    if s != [] && IsSpace(s[|s| - 1]) then TrimEnd(s[..|s| - 1]) else s
  }

  /** `s.trim()`: `s` without its leading and trailing white space. */
  function Trim(s: string): (r: string)
    ensures LeadingSpaces(s) + |r| <= |s| && r == s[LeadingSpaces(s)..LeadingSpaces(s) + |r|]
    ensures AllSpace(s[..LeadingSpaces(s)]) && AllSpace(s[LeadingSpaces(s) + |r|..])
    ensures r != [] ==> !IsSpace(r[0]) && !IsSpace(r[|r| - 1])
  {
    var t := TrimStart(s);
    var r := TrimEnd(t);
    SlicesOfSuffix(s, LeadingSpaces(s), t, |r|);
    r
  }

  /** Slicing a suffix of `s` is slicing `s` itself, shifted. */
  lemma SlicesOfSuffix(s: string, n: int, t: string, m: int)
    requires 0 <= n <= |s| && t == s[n..] && 0 <= m <= |t|
    ensures t[..m] == s[n..n + m] && t[m..] == s[n + m..]
  {
  }

  /** `trim` leaves nothing exactly when every character is white space. */
  lemma BlankIffAllSpace(s: string)
    ensures Trim(s) == [] <==> AllSpace(s)
  {
    var n := LeadingSpaces(s);
    var r := Trim(s);
    if r == [] {
      assert n == |s|;
      assert s[..n] == s;
    } else {
      assert r[0] == s[n];
    }
  }

  /** A string with a character `trim` keeps is not blank. */
  lemma FilledIfSomeNonSpace(s: string, k: int)
    requires 0 <= k < |s| && !IsSpace(s[k])
    ensures IsFilled(s)
  {
    BlankIffAllSpace(s);
  }

  /** The handlers' blank test: nothing but white space, which by
      `BlankIffAllSpace` is exactly when `trim` leaves nothing. */
  predicate IsBlank(s: string) {
    AllSpace(s)
  }

  /** Trimming leaves something: the test the handlers filter options by. */
  predicate IsFilled(s: string) {
    !IsBlank(s)
  }

  /** Trimming an already trimmed string changes nothing. */
  lemma TrimIdempotent(s: string)
    ensures Trim(Trim(s)) == Trim(s)
  {
    var r := Trim(s);
    if r != [] {
      assert TrimStart(r) == r;
      assert TrimEnd(r) == r;
    }
  }

  /** A string with no white space at either end is its own trim. */
  lemma TrimOfClean(s: string)
    requires s != [] && !IsSpace(s[0]) && !IsSpace(s[|s| - 1])
    ensures Trim(s) == s
  {
    assert TrimStart(s) == s;
    assert TrimEnd(s) == s;
  }

  /** The options that are not blank, in their original order. */
  function NonBlank(options: seq<string>): (r: seq<string>)
    ensures |r| <= |options|
    ensures forall o :: o in r <==> o in options && IsFilled(o)
  {
    Filter(IsFilled, options)
  }

  /** Every non-blank entry is kept after exactly the non-blank entries
      before it. */
  lemma NonBlankKeepsOrder(opts: seq<string>)
    ensures forall k :: 0 <= k < |opts| && IsFilled(opts[k]) ==> NonBlank(opts[..k]) + [opts[k]] <= NonBlank(opts)
  {
    forall k | 0 <= k < |opts| && IsFilled(opts[k])
      ensures NonBlank(opts[..k]) + [opts[k]] <= NonBlank(opts)
    {
      SplitAround(opts, k);
    }
  }

  /** Splitting the option list around entry `k` splits its non-blank
      entries the same way. */
  lemma SplitAround(opts: seq<string>, k: int)
    requires 0 <= k < |opts|
    ensures NonBlank(opts) == NonBlank(opts[..k]) + NonBlank([opts[k]]) + NonBlank(opts[k + 1..])
    ensures NonBlank([opts[k]]) == (if IsFilled(opts[k]) then [opts[k]] else [])
  {
    assert opts == opts[..k] + [opts[k]] + opts[k + 1..];
    FilterAppend(IsFilled, opts[..k] + [opts[k]], opts[k + 1..]);
    FilterAppend(IsFilled, opts[..k], [opts[k]]);
    FilterSingleton(IsFilled, opts[k]);
  }

  predicate IsQuote(c: char) {
    c == '"' || c == '\''
  }

  /** The correct-answer clean-up's quote removal: a global replace whose
      pattern matches one single or double quote anchored at the start, or
      one anchored at the end.  After a match at the start the search goes
      on past it, so at most one quote goes from each end, and a lone quote
      is removed once. */
  function StripQuotes(s: string): (r: string)
    ensures s == [] ==> r == []
    ensures |s| == 1 ==> r == (if IsQuote(s[0]) then [] else s)
    ensures |s| >= 2 && IsQuote(s[0]) && IsQuote(s[|s| - 1]) ==> r == s[1..|s| - 1]
    ensures |s| >= 2 && IsQuote(s[0]) && !IsQuote(s[|s| - 1]) ==> r == s[1..]
    ensures |s| >= 2 && !IsQuote(s[0]) && IsQuote(s[|s| - 1]) ==> r == s[..|s| - 1]
    ensures |s| >= 2 && !IsQuote(s[0]) && !IsQuote(s[|s| - 1]) ==> r == s
  {
    var lead := if |s| > 0 && IsQuote(s[0]) then 1 else 0;
    var stop := if |s| > lead && IsQuote(s[|s| - 1]) then |s| - 1 else |s|;
    s[lead..stop]
  }

  /** Only the outermost quote on each side goes: any string quoted at both
      ends, whatever it holds (more quotes included), loses exactly those two
      characters, and a lone quote disappears. */
  lemma StripQuotesRemovesOneLayer(open: char, w: string, close: char)
    requires IsQuote(open) && IsQuote(close)
    ensures StripQuotes([open] + w + [close]) == w
    ensures StripQuotes([open]) == []
  {
    var s := [open] + w + [close];
    assert s[1..|s| - 1] == w;
  }
}

=== FILE: view.dfy ===
/** The quiz player of src/View.jsx: a start screen asking for the
    player's name, one question at a time with an option to select and a
    Next button, and a result screen whose message depends on the score
    band.  Loading the game is I/O and is not modelled: the game is a
    parameter.
 */
module View {
  import opened Outcomes
  import opened Text
  import opened Game

  /** `playerView`. */
  datatype Screen = StartView | PlayingView | ResultView

  /** One entry of the answer log. */
  datatype AnswerEntry = AnswerEntry(
    questionId: int,
    question: string,
    selected: int,
    isCorrect: bool,
    points: int)

  /** The player's state; `selected` is `selectedAnswer` (`null` is `None`). */
  datatype Session = Session(
    screen: Screen,
    playerName: string,
    index: int,
    selected: Option<int>,
    score: int,
    answers: seq<AnswerEntry>,
    showScoreMessage: bool)

  const InitialSession: Session := Session(StartView, "", 0, None, 0, [], false)

  // ---------------------------------------------------------------- handlers

  datatype PlayError = MissingName | NoAnswerSelected | NoSuchQuestion

  /** The player types into the name box. */
  function SetPlayerName(s: Session, name: string): (r: Session)
    ensures r.playerName == name && r == s.(playerName := r.playerName)
  {
    s.(playerName := name)
  }

  /** `handleStart`: a blank name keeps the start screen. */
  function HandleStart(s: Session): (r: Result<Session, PlayError>)
    ensures r.Err? <==> IsBlank(s.playerName)
    ensures r.Err? ==> r.error == MissingName
    ensures r.Ok? ==> r.value == s.(screen := PlayingView)
  {
    if IsBlank(s.playerName) then Err(MissingName) else Ok(s.(screen := PlayingView))
  }

  /** `handleAnswerSelect`: the option buttons pass their own index. */
  function HandleAnswerSelect(s: Session, optionIndex: int): (r: Session)
    ensures r.selected == Some(optionIndex) && r == s.(selected := r.selected)
  {
    s.(selected := Some(optionIndex))
  }

  /** The award for one confirmed answer: two points exactly when the chosen
      index is the question's `correctOption`. */
  function Award(q: GameQuestion, selected: int): (points: int)
    ensures points == PointsPerQuestion <==> selected == q.correctOption
    ensures points == 0 <==> selected != q.correctOption
  {
    if selected == q.correctOption then PointsPerQuestion else 0
  }

  /** `handleNext`.  Without a selection nothing changes.  Otherwise the
      answer is scored and logged; before the last question the player
      moves on with the selection cleared, on the last one the result
      screen opens with the index left where it was.  An index past the
      questions (where the source would fail reading `question.id`) is an
      error. */
  function HandleNext(s: Session, questions: seq<GameQuestion>): (r: Result<Session, PlayError>)
    ensures s.selected.None? ==> r == Err(NoAnswerSelected)
    ensures s.selected.Some? && !(0 <= s.index < |questions|) ==> r == Err(NoSuchQuestion)
    ensures r.Ok? <==> s.selected.Some? && 0 <= s.index < |questions|
    ensures r.Ok? ==>
      var q := questions[s.index];
      var sel := s.selected.value;
      && r.value.score == s.score + (if sel == q.correctOption then PointsPerQuestion else 0)
      && r.value.answers == s.answers + [AnswerEntry(q.id, q.text, sel, sel == q.correctOption, r.value.score - s.score)]
      && r.value.playerName == s.playerName && r.value.showScoreMessage == s.showScoreMessage
    ensures r.Ok? && s.index < |questions| - 1 ==>
      r.value.screen == s.screen && r.value.index == s.index + 1 && r.value.selected.None?
    ensures r.Ok? && s.index == |questions| - 1 ==>
      r.value.screen == ResultView && r.value.index == s.index && r.value.selected == s.selected
  {
    if s.selected.None? then Err(NoAnswerSelected)
    else if !(0 <= s.index < |questions|) then Err(NoSuchQuestion)
    else
      var q := questions[s.index];
      var sel := s.selected.value;
      var points := Award(q, sel);
      var logged := s.(score := s.score + points,
                       answers := s.answers + [AnswerEntry(q.id, q.text, sel, sel == q.correctOption, points)]);
      if s.index < |questions| - 1 then Ok(logged.(index := s.index + 1, selected := None))
      else Ok(logged.(screen := ResultView))
  }

  /** The half-second timer after the last answer. */
  function RevealScoreMessage(s: Session): (r: Session)
    ensures r.showScoreMessage && r == s.(showScoreMessage := true)
  {
    s.(showScoreMessage := true)
  }

  /** `resetGame`: back to the start screen with nothing answered.  The
      player's name is kept. */
  function ResetGame(s: Session): (r: Session)
    ensures r == InitialSession.(playerName := s.playerName)
  {
    Session(StartView, s.playerName, 0, None, 0, [], false)
  }

  // ---------------------------------------------------------------- score bookkeeping

  function SumPoints(answers: seq<AnswerEntry>): int {
    if answers == [] then 0 else SumPoints(answers[..|answers| - 1]) + answers[|answers| - 1].points
  }

  function CountCorrect(answers: seq<AnswerEntry>): (n: nat)
    ensures n <= |answers|
  {
    if answers == [] then 0
    else CountCorrect(answers[..|answers| - 1]) + (if answers[|answers| - 1].isCorrect then 1 else 0)
  }

  /** Each logged entry's points agree with its verdict, and the running
      score is their sum. */
  predicate Consistent(s: Session) {
    && (forall k :: 0 <= k < |s.answers| ==>
          s.answers[k].points == (if s.answers[k].isCorrect then PointsPerQuestion else 0))
    && s.score == SumPoints(s.answers)
  }

  lemma {:induction false} SumIsTwiceCorrect(answers: seq<AnswerEntry>)
    requires forall k :: 0 <= k < |answers| ==> answers[k].points == (if answers[k].isCorrect then PointsPerQuestion else 0)
    ensures SumPoints(answers) == PointsPerQuestion * CountCorrect(answers)
  {
    if answers != [] {
      SumIsTwiceCorrect(answers[..|answers| - 1]);
    }
  }

  /** In a consistent session the score is twice the number of correct
      answers, hence at most twice the number answered. */
  lemma ScoreCountsCorrectAnswers(s: Session)
    requires Consistent(s)
    ensures s.score == PointsPerQuestion * CountCorrect(s.answers)
    ensures 0 <= s.score <= PointsPerQuestion * |s.answers|
  {
    SumIsTwiceCorrect(s.answers);
  }

  /** `handleNext` keeps the session consistent: one entry, whose points
      are exactly what the score went up by. */
  lemma HandleNextKeepsConsistent(s: Session, questions: seq<GameQuestion>)
    requires Consistent(s) && HandleNext(s, questions).Ok?
    ensures Consistent(HandleNext(s, questions).value)
    ensures |HandleNext(s, questions).value.answers| == |s.answers| + 1
  {
    var r := HandleNext(s, questions).value;
    assert r.answers[..|r.answers| - 1] == s.answers;
  }

  lemma ResetIsConsistent(s: Session)
    ensures Consistent(ResetGame(s)) && ResetGame(s).score == 0
  {
  }

  // ---------------------------------------------------------------- a whole play

  /** How many of the picks hit the question's `correctOption`. */
  function Matches(picks: seq<int>, questions: seq<GameQuestion>): (n: nat)
    requires |picks| <= |questions|
    ensures n <= |picks|
  {
    if picks == [] then 0
    else
      var last := |picks| - 1;
      Matches(picks[..last], questions) + (if picks[last] == questions[last].correctOption then 1 else 0)
  }

  /** Selecting an option and pressing Next on a question being played. */
  lemma PlayStep(s: Session, questions: seq<GameQuestion>, pick: int)
    requires s.screen == PlayingView && 0 <= s.index < |questions| && s.selected.None? && Consistent(s)
    ensures var r := HandleNext(HandleAnswerSelect(s, pick), questions);
      var q := questions[s.index];
      && r.Ok? && Consistent(r.value) && r.value.playerName == s.playerName
      && r.value.answers == s.answers + [AnswerEntry(q.id, q.text, pick, pick == q.correctOption, Award(q, pick))]
      && r.value.score == s.score + Award(q, pick)
      && (s.index < |questions| - 1 ==> r.value.screen == PlayingView && r.value.index == s.index + 1 && r.value.selected.None?)
      && (s.index == |questions| - 1 ==> r.value.screen == ResultView && r.value.index == s.index)
  {
    HandleNextKeepsConsistent(HandleAnswerSelect(s, pick), questions);
  }

  /** A log whose verdicts follow the picks counts exactly the matching
      picks. */
  lemma {:induction false} CountCorrectIsMatches(answers: seq<AnswerEntry>, picks: seq<int>, questions: seq<GameQuestion>)
    requires |answers| == |picks| <= |questions|
    requires forall i :: 0 <= i < |picks| ==> (answers[i].isCorrect <==> picks[i] == questions[i].correctOption)
    ensures CountCorrect(answers) == Matches(picks, questions)
  {
    if picks != [] {
      var last := |picks| - 1;
      CountCorrectIsMatches(answers[..last], picks[..last], questions);
    }
  }

  /** A consistent session whose log records each pick's verdict has
      scored two points per pick equal to its question's `correctOption`. */
  lemma {:induction false} PlayScoresMatches(s: Session, picks: seq<int>, questions: seq<GameQuestion>)
    requires Consistent(s) && |s.answers| == |picks| <= |questions|
    requires forall i :: 0 <= i < |picks| ==> (s.answers[i].isCorrect <==> picks[i] == questions[i].correctOption)
    ensures s.score == PointsPerQuestion * Matches(picks, questions)
  {
    SumIsTwiceCorrect(s.answers);
    CountCorrectIsMatches(s.answers, picks, questions);
  }

  /** A pick that misses costs its question. */
  lemma {:induction false} OneMissCap(picks: seq<int>, questions: seq<GameQuestion>, i: int)
    requires 0 <= i < |picks| <= |questions| && picks[i] != questions[i].correctOption
    ensures Matches(picks, questions) <= |picks| - 1
  {
    var last := |picks| - 1;
    if i < last {
      OneMissCap(picks[..last], questions, i);
    }
  }

  /** Two missed picks cost two questions. */
  lemma {:induction false} TwoMissesCap(picks: seq<int>, questions: seq<GameQuestion>, i: int, j: int)
    requires 0 <= i < j < |picks| <= |questions|
    requires picks[i] != questions[i].correctOption && picks[j] != questions[j].correctOption
    ensures Matches(picks, questions) <= |picks| - 2
  {
    var last := |picks| - 1;
    if j == last {
      OneMissCap(picks[..last], questions, i);
    } else {
      TwoMissesCap(picks[..last], questions, i, j);
    }
  }

  /** A play that missed at least one question scores at most two points
      short of the full total, and two misses four points short. */
  lemma MissedPicksCapScore(s: Session, picks: seq<int>, questions: seq<GameQuestion>, i: int, j: int)
    requires Consistent(s) && |s.answers| == |picks| <= |questions|
    requires forall k :: 0 <= k < |picks| ==> (s.answers[k].isCorrect <==> picks[k] == questions[k].correctOption)
    requires 0 <= i < |picks| && picks[i] != questions[i].correctOption
    ensures s.score <= PointsPerQuestion * (|picks| - 1)
    ensures 0 <= j < |picks| && i != j && picks[j] != questions[j].correctOption
            ==> s.score <= PointsPerQuestion * (|picks| - 2)
  {
    PlayScoresMatches(s, picks, questions);
    OneMissCap(picks, questions, i);
    if 0 <= j < |picks| && i != j && picks[j] != questions[j].correctOption {
      if i < j {
        TwoMissesCap(picks, questions, i, j);
      } else {
        TwoMissesCap(picks, questions, j, i);
      }
    }
  }

  /** A full play: start, then for each question press the option button of
      the pick and then Next.  Every pick must be a button the screen shows,
      so every question has options; a game with an options-less question
      cannot be played through (`QuestionWithoutOptionsBlocksPlay`).  The player ends on the result screen with one log entry per
      question, each entry recording its pick and verdict, and a consistent
      score, which `PlayScoresMatches` turns into two points per matching
      pick. */
  method PlayThrough(name: string, questions: seq<GameQuestion>, picks: seq<int>) returns (played: Session)
    requires IsFilled(name) && |questions| > 0 && |picks| == |questions|
    requires forall k :: 0 <= k < |picks| ==> Offered(questions, k, picks[k])
    ensures played.screen == ResultView && played.playerName == name && played.index == |questions| - 1
    ensures |played.answers| == |questions| && forall i :: 0 <= i < |questions| ==>
              played.answers[i].selected == picks[i] && played.answers[i].questionId == questions[i].id
              && (played.answers[i].isCorrect <==> picks[i] == questions[i].correctOption)
    ensures Consistent(played)
  {
    var started := HandleStart(SetPlayerName(InitialSession, name));
    played := started.value;
    var i := 0;
    while i < |questions|
      invariant 0 <= i <= |questions|
      invariant i < |questions| ==> played.screen == PlayingView && played.index == i && played.selected.None?
      invariant i == |questions| ==> played.screen == ResultView && played.index == i - 1
      invariant played.playerName == name && |played.answers| == i && Consistent(played)
      invariant forall j :: 0 <= j < i ==>
                  played.answers[j].selected == picks[j] && played.answers[j].questionId == questions[j].id
                  && (played.answers[j].isCorrect <==> picks[j] == questions[j].correctOption)
    {
      PlayStep(played, questions, picks[i]);
      var prev := played;
      var chosen := Press(played, questions, PressOption(picks[i]));
      assert chosen == HandleAnswerSelect(played, picks[i]);
      played := Press(chosen, questions, PressNext);
      assert forall j :: 0 <= j < i ==> played.answers[j] == prev.answers[j];
      i := i + 1;
    }
  }

  /** A question stored the way the builder stores a free-text one has no
      option button to press, so Next stays disabled; and whatever index
      were selected, it could never equal `-1`, so the question never
      scores. */
  lemma TextQuestionNeverScores(s: Session, questions: seq<GameQuestion>, pick: int)
    requires 0 <= s.index < |questions|
    requires questions[s.index].options == [] && questions[s.index].correctOption == -1
    requires 0 <= pick
    ensures HandleNext(s.(selected := None), questions) == Err(NoAnswerSelected)
    ensures HandleNext(HandleAnswerSelect(s, pick), questions).value.score == s.score
  {
  }

  // ---------------------------------------------------------------- the playing screen

  /** What the playing screen lets the player do: press one of the current
      question's option buttons, or press Next, which is disabled while
      nothing is selected. */
  datatype PlayAction = PressOption(optionIndex: int) | PressNext

  /** A selection the screen offers on question `k`: one button per option,
      each passing its own index. */
  predicate Offered(questions: seq<GameQuestion>, k: int, pick: int)
    requires 0 <= k < |questions|
  {
    0 <= pick < |questions[k].options|
  }

  /** One press on the playing screen.  Off that screen there are no such
      buttons, and a press the screen does not offer does nothing. */
  function Press(s: Session, questions: seq<GameQuestion>, a: PlayAction): (r: Session)
    ensures s.screen != PlayingView || !(0 <= s.index < |questions|) ==> r == s
    ensures a.PressOption? ==>
      r == s || (0 <= s.index < |questions| && Offered(questions, s.index, a.optionIndex)
                 && r == HandleAnswerSelect(s, a.optionIndex))
    ensures a.PressNext? && s.selected.None? ==> r == s
    ensures a.PressNext? && s.screen == PlayingView && s.selected.Some? && 0 <= s.index < |questions| ==>
      HandleNext(s, questions) == Ok(r)
  {
    if s.screen != PlayingView || !(0 <= s.index < |questions|) then s
    else
      match a
      case PressOption(k) => if Offered(questions, s.index, k) then HandleAnswerSelect(s, k) else s
      case PressNext => if s.selected.None? then s else HandleNext(s, questions).value
  }

  /** A sequence of presses. */
  function PlayRun(s: Session, questions: seq<GameQuestion>, actions: seq<PlayAction>): Session
    decreases |actions|
  {
    if actions == [] then s else PlayRun(Press(s, questions, actions[0]), questions, actions[1..])
  }

  /** Where a play can be while question `k` is still ahead or current:
      playing, at `k` or before it, holding only a selection the screen
      offered. */
  predicate NotPast(s: Session, questions: seq<GameQuestion>, k: int)
    requires 0 <= k < |questions|
  {
    && s.screen == PlayingView && 0 <= s.index <= k
    && (s.selected.Some? ==> Offered(questions, s.index, s.selected.value))
  }

  /** One press cannot carry a play past a question without options: there
      is no option to press, so Next stays disabled there. */
  lemma PressStaysNotPast(s: Session, questions: seq<GameQuestion>, a: PlayAction, k: int)
    requires 0 <= k < |questions| && questions[k].options == [] && NotPast(s, questions, k)
    ensures NotPast(Press(s, questions, a), questions, k)
  {
    if a.PressNext? && s.selected.Some? {
      assert s.index != k;
    }
  }

  /** A game with a question that has no options can never be finished:
      whatever the player presses, the play stays on the playing screen, at
      that question or before it. */
  lemma {:induction false} QuestionWithoutOptionsBlocksPlay(
    s: Session, questions: seq<GameQuestion>, actions: seq<PlayAction>, k: int)
    requires 0 <= k < |questions| && questions[k].options == [] && NotPast(s, questions, k)
    ensures NotPast(PlayRun(s, questions, actions), questions, k)
    ensures PlayRun(s, questions, actions).screen != ResultView
    decreases |actions|
  {
    if actions != [] {
      PressStaysNotPast(s, questions, actions[0], k);
      QuestionWithoutOptionsBlocksPlay(Press(s, questions, actions[0]), questions, actions[1..], k);
    }
  }

  // ---------------------------------------------------------------- result tier

  /** `getScoreLevel`: the bands are tried best first, comparing with their
      lower bounds only; a game without `gameInfo` is `low`. */
  function ScoreLevel(game: Option<GameData>, score: int): (t: Tier)
    ensures (game.None? || game.value.gameInfo.None?) ==> t == Low
    ensures game.Some? && game.value.gameInfo.Some? ==>
      var sc := game.value.gameInfo.value.scoring;
      && (t == Perfect <==> score >= sc.perfect.min)
      && (t == Good <==> score < sc.perfect.min && score >= sc.good.min)
      && (t == Low <==> score < sc.perfect.min && score < sc.good.min)
  {
    if game.None? || game.value.gameInfo.None? then Low
    else
      var sc := game.value.gameInfo.value.scoring;
      if score >= sc.perfect.min then Perfect
      else if score >= sc.good.min then Good
      else Low
  }

  /** `getScoreMessage`: the message of the band `getScoreLevel` picks, or
      nothing without `gameInfo`. */
  function ScoreMessage(game: Option<GameData>, score: int): (m: Option<Message>)
    ensures m.None? <==> game.None? || game.value.gameInfo.None?
    ensures m.Some? ==> m.value == BandOf(game.value.gameInfo.value.scoring, ScoreLevel(game, score)).message
  {
    if game.None? || game.value.gameInfo.None? then None
    else
      var sc := game.value.gameInfo.value.scoring;
      if score >= sc.perfect.min then Some(sc.perfect.message)
      else if score >= sc.good.min then Some(sc.good.message)
      else Some(sc.low.message)
  }

  /** With the bands every built game carries, the tiers split the scores
      at 8 and 5: 8 and above is perfect, 5 to 7 good, below 5 low. */
  lemma StandardTiers(game: GameData, messages: Messages, score: int)
    requires game.gameInfo.Some? && game.gameInfo.value.scoring == StandardScoring(messages)
    ensures ScoreLevel(Some(game), score) == Perfect <==> score >= 8
    ensures ScoreLevel(Some(game), score) == Good <==> 5 <= score < 8
    ensures ScoreLevel(Some(game), score) == Low <==> score < 5
    ensures ScoreMessage(Some(game), score) == Some(
              if score >= 8 then messages.perfect else if score >= 5 then messages.good else messages.low)
  {
  }

  /** The tier follows the score: more points never give a worse tier. */
  lemma TierMonotone(game: Option<GameData>, lo: int, hi: int)
    requires lo <= hi
    requires game.Some? && game.value.gameInfo.Some?
    requires game.value.gameInfo.value.scoring.good.min <= game.value.gameInfo.value.scoring.perfect.min
    ensures ScoreLevel(game, lo) == Perfect ==> ScoreLevel(game, hi) == Perfect
    ensures ScoreLevel(game, lo) == Good ==> ScoreLevel(game, hi) != Low
  {
  }
}
